=== FILE: README.md ===
# fluent-plugin-aggregation: the record-to-aggregate engine

A Dafny model of the aggregation core shared by the Fluentd output plugins of
fluent-plugin-aggregation:

- `MetricsMixin` and its `Metrics` definitions (`_metrics.rb`). Each `<metrics>`
  element is configured into a definition: a key extractor (the `each_key` fields,
  or the definition's name), a value extractor (`value_key` parsed as int or float,
  falling back to `default_value`), a count extractor (`count_key`, where 0 reads
  as 1) and a partition extractor (`partition_key`, or the event time formatted
  daily, hourly, minutely or secondly). `evaluate` turns one event into a
  `(keys, value, count, partition)` tuple or nil. `each_metrics` runs every
  definition over the event.
- `AggregationBase` (`aggregation_base.rb`). `format` turns an event into one
  aggregation object per applicable definition. `write` decodes a chunk and merges
  the objects that share an identity (`name + partition + key values`, hashed with
  MD5) by adding their counts and value fields.
- `ForwardAggregationOutput` (`aggregation_forward.rb`):
  - The node list is sorted by socket address.
  - Each object is routed to a partition id: the MD5 of its key values, modulo the
    number of nodes.
  - Objects are merged within each partition, and a payload of
    `[partition time, object]` entries is built per partition.
  - Only the payload of the first partition (the chunk's first object's) is sent,
    to the first live node found by probing downwards from its partition id; `write`
    returns after that send, so the payloads of the other partitions are dropped.

Modules follow that structure:

- `Wrappers`: `Option` and `Result`.
- `RubyHash`: Ruby's insertion-ordered `Hash`.
- `Ruby`:
  - event values and records;
  - the implicit exceptions, as `Failure`;
  - `String#split` and `String#strip`;
  - negative `Array` indexing;
  - `String#<=>`.
- `Metrics`.
- `Aggregation`: the identity and merge engine, which both plugins share.
- `AggregationBase`.
- `AggregationForward`.

Ruby exceptions the code raises implicitly are `Err` results:
- adding a non-String partition to a String;
- indexing or adding `nil` in the value merge;
- `% 0` when there are no nodes;
- an unparsable partition time;
- `nil.available?`.

Some library primitives are not modelled concretely:
- `to_i` and `to_f` on non-nil values;
- `Integer#to_s`;
- `Array#to_s`;
- MD5 hex digests;
- `String#to_i(16)`;
- `TimeFormatter#format`;
- `Time.parse`.

These are fields of a `Prims` value that every operation takes as a parameter. Every property is proved for all choices of them.

A value field that the stored object lacks is not initialised by the merge: the code
(`aggregation_base.rb:55`, `aggregation_forward.rb:99`) evaluates `nil + v` there and
raises, and so does `Aggregation.AddFields`.

## Model

| member | source | states |
|---|---|---|
| Metrics.Configure | _metrics.rb:65-137 | a definition is accepted exactly when it has a name, its type is int or float and either partition_key is set or partition_by (default "h") names a known granularity; each rejection is reported with the error the code raises, checked in the code's order; the name, value_key and count_key are carried over |
| Metrics.ConfigureAll | _metrics.rb:27-41 | one definition per `<metrics>` element in order, each the configuration of its element; on failure the error is that of the first failing element and every earlier one configured |
| Metrics.CollectKeysAllOrNothing | _metrics.rb:148-154 | the multi-key closure yields every field's value in order when all are truthy and nil otherwise, never a partial list |
| Metrics.NameKeyWithoutEachKey | _metrics.rb:88-92 | without each_key the keys list is empty and every event is keyed by `[name]` |
| Metrics.KeysAllOrNothing | _metrics.rb:140-156 | with each_key, the one-key and the many-key closures both yield all the configured fields' values or nil, the keys being the parsed each_key list |
| Metrics.ValueRules | _metrics.rb:94-111 | the value is the value field converted by type when truthy, else the default converted the same way, else nil with a value field and 1 without one; without a value field there is always a value |
| Metrics.CountRules | _metrics.rb:113-117 | the count is the count field's integer value with 0 (so also a missing field) read as 1, and 1 without a count field; it is never 0 |
| Metrics.PartitionRules | _metrics.rb:119-137 | partition_key yields the raw field; otherwise the event time formatted at the configured granularity, local time unless only utc is set, hourly when partition_by is absent |
| Metrics.EvaluateSkipsExactly | _metrics.rb:158-170 | `Metrics.Evaluate`: evaluate yields nil exactly when a key field is missing or the value field is missing without a default, and otherwise the tuple of keys, value, count and partition |
| Metrics.EachMetricsAppend | _metrics.rb:173-179 | `Metrics.EachMetrics`: definitions are evaluated independently: the results for concatenated definition lists concatenate |
| Metrics.EachMetricsOne | _metrics.rb:173-179 | `Metrics.EachMetrics`: a single definition is yielded once, with its tuple, when it applies and not at all otherwise; with the append law this fixes the result for every list |
| Metrics.EachMetricsMembers | _metrics.rb:173-179 | `Metrics.EachMetrics`: a definition appears with a tuple in the result exactly when it is configured and evaluates to that tuple |
| Ruby.SplitAll | _metrics.rb:86 | the pieces of `split(',')` joined with commas give back the input, and no piece contains a comma |
| Ruby.DropTrailingEmpty | _metrics.rb:86 | `split` drops exactly the trailing empty pieces: the result is a prefix ending in a non-empty piece and everything dropped is empty |
| Ruby.LStrip | _metrics.rb:86 | the leading whitespace is removed and the result starts with a non-space |
| Ruby.RStrip | _metrics.rb:86 | trailing whitespace and NULs are removed and the result ends with neither |
| Ruby.ArrayIndex | aggregation_forward.rb:77 | a node-list index reads an element exactly when it lies in `-n ... n`, counting from the end when negative |
| Ruby.StringLessIrreflexive | aggregation_forward.rb:18 | no address sorts before itself |
| Ruby.StringLessAsymmetric | aggregation_forward.rb:18 | two addresses never sort before each other |
| Ruby.StringLessTransitive | aggregation_forward.rb:18 | the address order is transitive |
| Ruby.StringLessTotal | aggregation_forward.rb:18 | any two different addresses are ordered one way or the other |
| RubyHash.FromPairsKeys | aggregation_base.rb:18 | `Hash[pairs]` binds exactly the keys occurring in the pairs |
| RubyHash.FromPairsLookup | aggregation_base.rb:18 | when no key is paired with two values, `Hash[pairs]` binds each key to its paired value |
| Aggregation.AddFields | aggregation_base.rb:53-57 | adding value fields succeeds exactly when the stored hash has every incoming field; the stored hash keeps its fields and order, and each field becomes its stored value plus the incoming one |
| Aggregation.StepNewIdentity | aggregation_base.rb:59-60 | the first object under an identity is the merged object of the objects seen so far under it |
| Aggregation.StepSameIdentity | aggregation_base.rb:52-58 | a later object under an identity adds its count and value fields to the merged object |
| Aggregation.StepOtherIdentity | aggregation_base.rb:49-62 | an object under another identity leaves a merged object unchanged |
| Aggregation.PreAggregateStep | aggregation_base.rb:49-62 | `Aggregation.PreAggregate`: one `pre_aggregate` call keeps the store a summary of the objects seen: one entry per identity seen, holding the first object with the summed count and value fields |
| Aggregation.FoldSummarises | aggregation_base.rb:35-62 | `Aggregation.Fold`, the whole chunk through `pre_aggregate`: pre-aggregating a chunk succeeds exactly when its objects are mergeable (string partitions; a later object's value fields present in the merged one), and then the store has exactly one entry per identity seen, holding the first object's name, partition and key with summed counts and value fields |
| Aggregation.FoldErrorIsFinal | aggregation_base.rb:37-45 | once a prefix of the chunk raises, the whole chunk raises the same error |
| Aggregation.PairMerge | aggregation_base.rb:52-58 | two objects under one identity merge into one whose count and value fields are the sums of theirs |
| Aggregation.MergeOrderKeepsSums | aggregation_base.rb:52-58 | two objects under one identity merge to the same count and value fields in either order |
| Aggregation.MergeOrderMatters | aggregation_base.rb:52-60 | the merge is not commutative: an object with a value hash followed by one without merges, while the reverse order raises on the missing value hash |
| AggregationBase.Zip | aggregation_base.rb:18 | zipping key names with key values gives one pair per name: the i-th name with the i-th value, or with nil past the end of the values |
| AggregationBase.Format | aggregation_base.rb:12-33 | with no definitions the record passes through; otherwise one object per applicable definition, in order, carrying its name, partition and count, no partition id, the key hash of its key names zipped with the extracted keys, and a value hash exactly when value_key is set, binding value_key to the evaluated value |
| AggregationBase.KeyHashOfProjection | aggregation_base.rb:18 | the key hash binds exactly the configured key names, each to the value read from the event |
| AggregationBase.ObjectKeyHash | aggregation_base.rb:17-24 | an object's key hash maps each configured key name to the event's value for it, and is empty without each_key |
| AggregationBase.ObjectValueHash | aggregation_base.rb:25-28 | an object has a value hash exactly when value_key is configured, holding the evaluated value under that one name |
| AggregationBase.Write | aggregation_base.rb:35-46 | writing a chunk succeeds exactly when its objects are mergeable, and then the store summarises them; the loop stops at the first raise |
| AggregationBase.UidIgnoresFieldBoundaries | aggregation_base.rb:50-51 | objects with different names and partitions can share one identity, because the identity has no separators |
| AggregationBase.KeyTuplesCollide | aggregation_base.rb:50 | different key tuples such as `["ab", "c"]` and `["a", "bc"]` give the same identity, under either plugin's identity |
| AggregationForward.NodeList | aggregation_forward.rb:17-19 | the node list holds exactly the configured nodes, ordered by socket address |
| AggregationForward.Partition | aggregation_forward.rb:89-91 | the partition id is below the node count, and with no nodes the division raises |
| AggregationForward.PartitionDependsOnValuesOnly | aggregation_forward.rb:89-91 | key hashes with the same values, whatever their names, route to the same partition |
| AggregationForward.OverwriteKeepsLast | aggregation_forward.rb:35-50 | each applicable definition overwrites the previous result, so the last one's entry is returned; with no nodes the first one raises |
| AggregationForward.FormatWithoutEntry | aggregation_forward.rb:30-53 | `AggregationForward.Format`: forward `format` passes the record through without definitions, returns nil when none applies, and raises on the first applicable definition when there are no nodes |
| AggregationForward.FormatKeepsLastApplicable | aggregation_forward.rb:35-49 | `AggregationForward.Format`: with nodes and some applicable definition, forward `format` returns only the last applicable definition's single-node object, tagged with its partition id, which is the partition of that object's key hash and below the node count |
| AggregationForward.RoutedToLast | aggregation_forward.rb:93-105 | merging an object into its partition's store gives the pre-aggregation of that partition's objects so far |
| AggregationForward.PartitionsMergeSeparately | aggregation_forward.rb:93-106 | `AggregationForward.PreAggregateAll`: a partition has a store exactly when some object was routed to it, and that store is the pre-aggregation of the objects routed there alone |
| AggregationForward.EveryPartitionMerges | aggregation_forward.rb:93-106 | when the chunk pre-aggregates, every partition's objects pre-aggregate on their own |
| AggregationForward.SomePartitionFails | aggregation_forward.rb:108-118 | when the chunk raises, some partition's objects raise on their own |
| AggregationForward.FirstPartitionIsFirstObjects | aggregation_forward.rb:94 | the first partition listed is the first object's, and there are none only for an empty chunk |
| AggregationForward.Entries | aggregation_forward.rb:122-125 | a payload has one `[time, object]` entry per merged object, in order, with the parsed partition time; it raises exactly when some partition is not a parsable time string |
| AggregationForward.Payloads | aggregation_forward.rb:119-127 | the payloads are listed in the partitions' order, each the entries of that partition's store |
| AggregationForward.PayloadsOk | aggregation_forward.rb:119-127 | `AggregationForward.Payloads`: building the payloads raises exactly when some partition's store holds an object whose partition does not parse as a time |
| AggregationForward.PartitionedRecordsOk | aggregation_forward.rb:108-127 | `AggregationForward.PartitionedRecords`: `get_partitioned_records` succeeds exactly when the per-partition merge succeeds and every merged object's partition parses as a time |
| AggregationForward.PayloadPerPartition | aggregation_forward.rb:108-128 | `AggregationForward.PartitionedRecords`: each partition's payload lists, in store order, the merged objects of the objects routed to that partition alone, each with its partition time |
| AggregationForward.ProbeVisitsEachNodeOnce | aggregation_forward.rb:75-83 | from a valid partition id the probes read a node every time, never the same one twice, and every node is reached |
| AggregationForward.ProbeFromValidPartition | aggregation_forward.rb:75-84 | `AggregationForward.Probe`: from a valid partition id the probe never reads nil, and gives up exactly when every remaining probed node is down |
| AggregationForward.ProbeFindsLiveNode | aggregation_forward.rb:76-81 | a successful probe lands on a live node |
| AggregationForward.ProbeIsFirstLive | aggregation_forward.rb:76-81 | `AggregationForward.Probe`: a successful probe returns the node read by some probe whose every earlier probe read a node that is down, i.e. the first live node in probe order |
| AggregationForward.ProbeGivesUpIffAllDown | aggregation_forward.rb:75-84 | from a valid partition id the failover loop gives up exactly when every node is down |
| AggregationForward.SelectNode | aggregation_forward.rb:75-84 | the failover loop returns a live node read by some probe all of whose earlier probes read down nodes, so the first live node in probe order; it gives up only after finding every probed node down, and from a valid partition id exactly when all nodes are down |
| AggregationForward.WriteSendsFirstPartitionOnly | aggregation_forward.rb:70-86 | `AggregationForward.Write`: an empty chunk sends nothing; otherwise exactly one partition is sent, the first object's, with its payload, to a live node that the probe reaches after finding every earlier probed node down |
| AggregationForward.WriteFailsOnlyWhenAllNodesDown | aggregation_forward.rb:73-85 | when the payloads are built (see `PartitionedRecordsOk`) and the first partition id is valid, `write` raises "no nodes are available" exactly when every node is down |

## Left out

- Buffering, chunk files, `chunk.open` and the plugins' lifecycle (`start`, `shutdown`, `emit`, `submit_flush`): I/O. A chunk is the sequence of objects it decodes to, and running out of objects is the normal end.
- MessagePack encoding and decoding: a wire format. An object is the `AggRecord` it encodes. A chunk is modelled as a sequence of aggregation objects only; the raw records `format` writes when no definitions are configured are decoded by the source's `write` too, and what `pre_aggregate` does with them is not modelled.
- `format_stream` of the forwarding plugin: the concatenation of `format` results is I/O. A nil result there would raise when appended, and that is not modelled.
- `send_data`, `available?` and the heartbeat logic of `ForwardOutput`: network. Liveness is a field of each node, and a delivery is the value `Write` returns.
- The `flush_interval` override in the forwarding `configure`: it affects only buffer timing.
- The MongoDB and Redis sinks: they consume the store, and the model ends at the store.
- MD5, `to_i(16)`, `Array#to_s`, `Integer#to_s`, `to_i`/`to_f` on non-nil values, `TimeFormatter#format` and `Time.parse`: opaque library code, taken as parameters.
- Float event values: `Int` stands for any non-String number, and `Prims.toI`/`toF` give its conversions; its text in a key join is `Prims.show` of an integer, so the exact `to_s` of a Float key value is not modelled. Arrays and hashes as event field values are not modelled either.
- Boolean event values: `true.to_i` raises in Ruby, but a `Prims` conversion is total, so that raise is not modelled.
- Floating-point rounding: values are exact reals, and int-typed definitions produce whole numbers.
- Ruby.LStrip: a leading NUL is kept while `Ruby.RStrip` strips a trailing one, as `String#strip` of the plugin's Ruby era does; a Ruby that also strips a leading NUL would read such a key name differently.
- Configurable's own parameter checks (`config_param :name` as required): the model reports a missing name as `MissingName` without modelling Configurable.
- Metrics.ConfigureAll: picking the `<metrics>` elements out of the configuration (`e.name == 'metrics'`) is left to the caller, which passes only those elements.
- AggregationForward.NodeList: the `|sockaddr, node|` pairs at `aggregation_forward.rb:18` indicate that `@nodes` is keyed by socket address, so two nodes never share an address there (`ForwardOutput` itself is not part of this model). Given two nodes with the same address, the model keeps the earlier one first, and its contract states only the order and the contents.

=== FILE: aggregation.dfy ===
/** The pre-aggregation engine shared by both plugins: the identity of an aggregation
    object and the additive merge of objects that share it. */
module Aggregation {
  import opened Wrappers
  import opened Ruby
  import opened RubyHash

  /** One aggregation object, `{name, partition_id?, partition, key, count, value?}`. */
  datatype AggRecord = AggRecord(
    name: string,
    partitionId: Option<int>,
    partition: Val,
    key: Hash<string, Val>,
    count: int,
    value: Option<Hash<string, real>>)

  /** `@pre_aggregation`: identity to merged object, in first-seen order. */
  type Store = Hash<string, AggRecord>

  /** The single-node plugin hashes the identity with MD5; the forwarding plugin does not. */
  datatype UidMode = Digest | Plain

  /** The identity text of `pre_aggregate`: name, then partition, then the key values joined,
      with no separator between them; a non-String partition raises. */
  function UidSource(p: Prims, a: AggRecord): Result<string, Failure> {
    if a.partition.Str? then Ok(a.name + a.partition.s + Join(p, Values(a.key)))
    else Err(NotAString)
  }

  function Uid(p: Prims, mode: UidMode, a: AggRecord): Result<string, Failure> {
    var src :- UidSource(p, a);
    Ok(if mode == Digest then p.md5Hex(src) else src)
  }

  /** `stored[k] += inc[k]` for each `k` of `ks` in turn; a field the stored hash lacks
      raises (`nil + v`). The stored hash gains no fields. */
  function AddFields(stored: Hash<string, real>, inc: Hash<string, real>, ks: seq<string>): (r: Result<Hash<string, real>, Failure>)
    requires forall i :: 0 <= i < |ks| ==> ks[i] in inc.m
    requires forall i, j :: 0 <= i < j < |ks| ==> ks[i] != ks[j]
    ensures r.Ok? <==> forall i :: 0 <= i < |ks| ==> ks[i] in stored.m
    ensures r.Ok? ==> r.value.keys == stored.keys
    ensures r.Ok? ==> forall k :: k in stored.m ==> r.value.m[k] == stored.m[k] + (if k in ks then inc.m[k] else 0.0)
    decreases |ks|
  {
    if |ks| == 0 then Ok(stored)
    else if ks[0] !in stored.m then Err(NilValueField(ks[0]))
    else
      var k0 := ks[0];
      var rest := ks[1..];
      assert forall k :: k in ks <==> k == k0 || k in rest;
      assert k0 !in rest;
      AddFields(Put(stored, k0, stored.m[k0] + inc.m[k0]), inc, rest)
  }

  /** Adds each incoming value field into the stored value hash; a stored object without a
      value hash raises as soon as there is a field to add. */
  function AddValues(stored: Option<Hash<string, real>>, inc: Hash<string, real>): Result<Option<Hash<string, real>>, Failure> {
    if |inc.keys| == 0 then Ok(stored)
    else if stored.None? then Err(NilValueHash)
    else
      var v :- AddFields(stored.value, inc, inc.keys);
      Ok(Some(v))
  }

  /** Fold a later object into the stored one: values, then count; nothing else changes. */
  function Combine(stored: AggRecord, a: AggRecord): Result<AggRecord, Failure> {
    var v :- if a.value.Some? then AddValues(stored.value, a.value.value) else Ok(stored.value);
    Ok(stored.(count := stored.count + a.count, value := v))
  }

  /** `pre_aggregate(record)`: the first object under an identity is stored as it is;
      later ones are added into it. */
  function PreAggregate(p: Prims, mode: UidMode, s: Store, a: AggRecord): Result<Store, Failure> {
    var uid :- Uid(p, mode, a);
    if uid in s.m then
      var merged :- Combine(s.m[uid], a);
      Ok(Put(s, uid, merged))
    else Ok(Put(s, uid, a))
  }

  /** Pre-aggregation of a whole decoded chunk, starting from an empty store. The end of the
      sequence is the end of the chunk; the first raise aborts. */
  function Fold(p: Prims, mode: UidMode, rs: seq<AggRecord>): Result<Store, Failure>
    decreases |rs|
  {
    if |rs| == 0 then Ok(Empty())
    else
      var s :- Fold(p, mode, rs[..|rs| - 1]);
      PreAggregate(p, mode, s, rs[|rs| - 1])
  }

  // ---------------------------------------------------------------- what a fold computes

  /** Some object of `rs` has identity `u`. */
  predicate Seen(p: Prims, mode: UidMode, rs: seq<AggRecord>, u: string)
    decreases |rs|
  {
    |rs| > 0 && (Seen(p, mode, rs[..|rs| - 1], u) || Uid(p, mode, rs[|rs| - 1]) == Ok(u))
  }

  /** The first object of `rs` with identity `u`. */
  function First(p: Prims, mode: UidMode, rs: seq<AggRecord>, u: string): AggRecord
    requires Seen(p, mode, rs, u)
    decreases |rs|
  {
    if Seen(p, mode, rs[..|rs| - 1], u) then First(p, mode, rs[..|rs| - 1], u) else rs[|rs| - 1]
  }

  /** Sum of the counts of the objects of `rs` with identity `u`. */
  function CountSum(p: Prims, mode: UidMode, rs: seq<AggRecord>, u: string): int
    decreases |rs|
  {
    if |rs| == 0 then 0
    else CountSum(p, mode, rs[..|rs| - 1], u) + (if Uid(p, mode, rs[|rs| - 1]) == Ok(u) then rs[|rs| - 1].count else 0)
  }

  /** An object's value field `k`, or 0 when it has none. */
  function FieldOf(a: AggRecord, k: string): real {
    if a.value.Some? && k in a.value.value.m then a.value.value.m[k] else 0.0
  }

  /** Sum of value field `k` over the objects of `rs` with identity `u`. */
  function ValueSum(p: Prims, mode: UidMode, rs: seq<AggRecord>, u: string, k: string): real
    decreases |rs|
  {
    if |rs| == 0 then 0.0
    else ValueSum(p, mode, rs[..|rs| - 1], u, k) + (if Uid(p, mode, rs[|rs| - 1]) == Ok(u) then FieldOf(rs[|rs| - 1], k) else 0.0)
  }

  /** `a` is the merge of the objects of `rs` with identity `u`: the first one's name, partition
      and key, its value fields, and the sums of count and of each value field. */
  predicate Accumulated(p: Prims, mode: UidMode, rs: seq<AggRecord>, u: string, a: AggRecord)
    requires Seen(p, mode, rs, u)
  {
    var f := First(p, mode, rs, u);
    && a.name == f.name
    && a.partitionId == f.partitionId
    && a.partition == f.partition
    && a.key == f.key
    && a.count == CountSum(p, mode, rs, u)
    && (a.value.Some? <==> f.value.Some?)
    && (a.value.Some? ==>
          && a.value.value.keys == f.value.value.keys
          && forall k :: k in a.value.value.m ==> a.value.value.m[k] == ValueSum(p, mode, rs, u, k))
  }

  /** `s` holds one merged object per identity occurring in `rs`, and nothing else. */
  ghost predicate Summarises(p: Prims, mode: UidMode, rs: seq<AggRecord>, s: Store) {
    && (forall u :: u in s.m <==> Seen(p, mode, rs, u))
    && (forall u :: u in s.m && Seen(p, mode, rs, u) ==> Accumulated(p, mode, rs, u, s.m[u]))
  }

  /** The condition under which no merge raises: every partition is a String, and every later
      object's value fields already exist on the first object with the same identity. */
  predicate Mergeable(p: Prims, mode: UidMode, rs: seq<AggRecord>)
    decreases |rs|
  {
    |rs| == 0 ||
    (var pre, a := rs[..|rs| - 1], rs[|rs| - 1];
     && Mergeable(p, mode, pre)
     && Uid(p, mode, a).Ok?
     && (Seen(p, mode, pre, Uid(p, mode, a).value) && a.value.Some? && |a.value.value.keys| > 0 ==>
           var f := First(p, mode, pre, Uid(p, mode, a).value);
           f.value.Some? && forall k :: k in a.value.value.m ==> k in f.value.value.m))
  }

  lemma {:induction false} UnseenSumsAreZero(p: Prims, mode: UidMode, rs: seq<AggRecord>, u: string, k: string)
    requires !Seen(p, mode, rs, u)
    ensures CountSum(p, mode, rs, u) == 0 && ValueSum(p, mode, rs, u, k) == 0.0
    decreases |rs|
  {
    if |rs| > 0 {
      UnseenSumsAreZero(p, mode, rs[..|rs| - 1], u, k);
    }
  }

  /** An object with another identity leaves a merged object as it was. */
  lemma StepOtherIdentity(p: Prims, mode: UidMode, rs: seq<AggRecord>, u: string, x: AggRecord)
    requires |rs| > 0 && Uid(p, mode, rs[|rs| - 1]) != Ok(u)
    requires Seen(p, mode, rs[..|rs| - 1], u) && Accumulated(p, mode, rs[..|rs| - 1], u, x)
    ensures Seen(p, mode, rs, u) && Accumulated(p, mode, rs, u, x)
  {
    assert forall k :: ValueSum(p, mode, rs, u, k) == ValueSum(p, mode, rs[..|rs| - 1], u, k);
  }

  /** The first object under an identity is stored as it is. */
  lemma StepNewIdentity(p: Prims, mode: UidMode, rs: seq<AggRecord>, u: string)
    requires |rs| > 0 && Uid(p, mode, rs[|rs| - 1]) == Ok(u)
    requires !Seen(p, mode, rs[..|rs| - 1], u)
    ensures Seen(p, mode, rs, u) && Accumulated(p, mode, rs, u, rs[|rs| - 1])
  {
    var pre, a := rs[..|rs| - 1], rs[|rs| - 1];
    forall k | true
      ensures ValueSum(p, mode, rs, u, k) == FieldOf(a, k)
    {
      UnseenSumsAreZero(p, mode, pre, u, k);
    }
    UnseenSumsAreZero(p, mode, pre, u, "");
  }

  /** The sums over `rs` are those over its prefix plus the last object's share. */
  lemma SumsStep(p: Prims, mode: UidMode, rs: seq<AggRecord>, u: string)
    requires |rs| > 0 && Uid(p, mode, rs[|rs| - 1]) == Ok(u)
    ensures CountSum(p, mode, rs, u) == CountSum(p, mode, rs[..|rs| - 1], u) + rs[|rs| - 1].count
    ensures forall k :: ValueSum(p, mode, rs, u, k) == ValueSum(p, mode, rs[..|rs| - 1], u, k) + FieldOf(rs[|rs| - 1], k)
  {
  }

  /** A later object under an identity adds its count and value fields into the stored one. */
  lemma StepSameIdentity(p: Prims, mode: UidMode, rs: seq<AggRecord>, u: string, stored: AggRecord)
    requires |rs| > 0 && Uid(p, mode, rs[|rs| - 1]) == Ok(u)
    requires Seen(p, mode, rs[..|rs| - 1], u) && Accumulated(p, mode, rs[..|rs| - 1], u, stored)
    requires Combine(stored, rs[|rs| - 1]).Ok?
    ensures Seen(p, mode, rs, u) && Accumulated(p, mode, rs, u, Combine(stored, rs[|rs| - 1]).value)
  {
    var pre, a := rs[..|rs| - 1], rs[|rs| - 1];
    var merged := Combine(stored, a).value;
    assert First(p, mode, rs, u) == First(p, mode, pre, u);
    SumsStep(p, mode, rs, u);
    if a.value.Some? && stored.value.Some? && |a.value.value.keys| > 0 {
      var inc := a.value.value;
      forall k | k in merged.value.value.m
        ensures merged.value.value.m[k] == ValueSum(p, mode, rs, u, k)
      {
        assert k in inc.keys <==> k in inc.m;
      }
    } else if a.value.Some? && |a.value.value.keys| == 0 {
      assert a.value.value.m.Keys == {};
    }
  }

  /** One merge step keeps the store a summary of the objects seen so far. */
  lemma PreAggregateStep(p: Prims, mode: UidMode, rs: seq<AggRecord>, s: Store)
    requires |rs| > 0
    requires Summarises(p, mode, rs[..|rs| - 1], s)
    ensures PreAggregate(p, mode, s, rs[|rs| - 1]).Ok? ==> Summarises(p, mode, rs, PreAggregate(p, mode, s, rs[|rs| - 1]).value)
  {
    var pre, a := rs[..|rs| - 1], rs[|rs| - 1];
    if PreAggregate(p, mode, s, a).Ok? {
      var s' := PreAggregate(p, mode, s, a).value;
      var u0 := Uid(p, mode, a).value;
      assert s'.m.Keys == s.m.Keys + {u0};
      forall u | u in s'.m && Seen(p, mode, rs, u)
        ensures Accumulated(p, mode, rs, u, s'.m[u])
      {
        if u != u0 {
          StepOtherIdentity(p, mode, rs, u, s.m[u]);
        } else if u0 !in s.m {
          StepNewIdentity(p, mode, rs, u);
        } else {
          StepSameIdentity(p, mode, rs, u, s.m[u]);
        }
      }
    }
  }

  /** A successful fold yields exactly the merge of each identity's objects; it succeeds
      exactly when the objects are mergeable. */
  lemma {:induction false} FoldSummarises(p: Prims, mode: UidMode, rs: seq<AggRecord>)
    ensures Fold(p, mode, rs).Ok? <==> Mergeable(p, mode, rs)
    ensures Fold(p, mode, rs).Ok? ==> Summarises(p, mode, rs, Fold(p, mode, rs).value)
    decreases |rs|
  {
    if |rs| > 0 {
      var pre, a := rs[..|rs| - 1], rs[|rs| - 1];
      FoldSummarises(p, mode, pre);
      if Fold(p, mode, pre).Ok? {
        var s := Fold(p, mode, pre).value;
        PreAggregateStep(p, mode, rs, s);
        if Uid(p, mode, a).Ok? {
          var u := Uid(p, mode, a).value;
          if u in s.m && a.value.Some? && |a.value.value.keys| > 0 {
            var f := First(p, mode, pre, u);
            assert Accumulated(p, mode, pre, u, s.m[u]);
            if s.m[u].value.Some? {
              assert s.m[u].value.value.m.Keys == f.value.value.m.Keys;
              var inc := a.value.value;
              assert (forall i :: 0 <= i < |inc.keys| ==> inc.keys[i] in s.m[u].value.value.m)
                <==> (forall k :: k in inc.m ==> k in f.value.value.m);
            }
          }
        }
      }
    }
  }

  /** Once a prefix of the chunk raises, the whole chunk raises the same error. */
  lemma {:induction false} FoldErrorIsFinal(p: Prims, mode: UidMode, rs: seq<AggRecord>, j: nat)
    requires j <= |rs| && Fold(p, mode, rs[..j]).Err?
    ensures Fold(p, mode, rs) == Fold(p, mode, rs[..j])
    decreases |rs|
  {
    if j < |rs| {
      var pre := rs[..|rs| - 1];
      assert pre[..j] == rs[..j];
      FoldErrorIsFinal(p, mode, pre, j);
    } else {
      assert rs[..j] == rs;
    }
  }

  lemma PairSums(p: Prims, mode: UidMode, a: AggRecord, b: AggRecord, u: string)
    requires Uid(p, mode, a) == Ok(u) && Uid(p, mode, b) == Ok(u)
    ensures Seen(p, mode, [a, b], u)
    ensures CountSum(p, mode, [a, b], u) == a.count + b.count
    ensures forall k :: ValueSum(p, mode, [a, b], u, k) == FieldOf(a, k) + FieldOf(b, k)
  {
    var ab := [a, b];
    assert ab[..1] == [a] && [a][..0] == [];
    assert CountSum(p, mode, [a], u) == a.count;
    forall k | true
      ensures ValueSum(p, mode, [a, b], u, k) == FieldOf(a, k) + FieldOf(b, k)
    {
      assert ValueSum(p, mode, [a], u, k) == FieldOf(a, k);
    }
  }

  /** Merging `b` into `a` sums their counts and value fields. */
  lemma PairMerge(p: Prims, mode: UidMode, a: AggRecord, b: AggRecord, u: string)
    requires Uid(p, mode, a) == Ok(u) && Uid(p, mode, b) == Ok(u)
    requires Fold(p, mode, [a, b]).Ok?
    ensures u in Fold(p, mode, [a, b]).value.m
    ensures Fold(p, mode, [a, b]).value.m[u].count == a.count + b.count
    ensures var x := Fold(p, mode, [a, b]).value.m[u];
      x.value.Some? ==> forall k :: k in x.value.value.m ==> x.value.value.m[k] == FieldOf(a, k) + FieldOf(b, k)
  {
    PairSums(p, mode, a, b, u);
    FoldSummarises(p, mode, [a, b]);
    var s := Fold(p, mode, [a, b]).value;
    assert Accumulated(p, mode, [a, b], u, s.m[u]);
  }

  /** Two objects with the same identity merge to the same count and value sums in either order. */
  lemma MergeOrderKeepsSums(p: Prims, mode: UidMode, a: AggRecord, b: AggRecord, u: string)
    requires Uid(p, mode, a) == Ok(u) && Uid(p, mode, b) == Ok(u)
    requires Fold(p, mode, [a, b]).Ok? && Fold(p, mode, [b, a]).Ok?
    ensures u in Fold(p, mode, [a, b]).value.m && u in Fold(p, mode, [b, a]).value.m
    ensures Fold(p, mode, [a, b]).value.m[u].count == Fold(p, mode, [b, a]).value.m[u].count
    ensures var x, y := Fold(p, mode, [a, b]).value.m[u], Fold(p, mode, [b, a]).value.m[u];
      x.value.Some? && y.value.Some? ==>
        forall k :: k in x.value.value.m && k in y.value.value.m ==> x.value.value.m[k] == y.value.value.m[k]
  {
    PairMerge(p, mode, a, b, u);
    PairMerge(p, mode, b, a, u);
  }

  /** The merge is not commutative: when only the later object has a value hash, merging
      raises, while the other order keeps the first object's value hash. */
  lemma MergeOrderMatters(p: Prims, mode: UidMode)
    ensures var a := AggRecord("m", None, Str("t"), Empty(), 1, Some(Put(Empty(), "v", 1.0)));
            var b := AggRecord("m", None, Str("t"), Empty(), 1, None);
            && Uid(p, mode, a) == Uid(p, mode, b)
            && Fold(p, mode, [a, b]).Ok?
            && Fold(p, mode, [b, a]) == Err(NilValueHash)
  {
    var a := AggRecord("m", None, Str("t"), Empty(), 1, Some(Put(Empty(), "v", 1.0)));
    var b := AggRecord("m", None, Str("t"), Empty(), 1, None);
    assert [a, b][..1] == [a] && [b, a][..1] == [b];
    assert [a][..0] == [] && [b][..0] == [];
    assert Values(a.key) == [] && Values(b.key) == [];
    var u := Uid(p, mode, a).value;
    assert Uid(p, mode, b) == Ok(u);
    var sa: Store := Put(Empty(), u, a);
    var sb: Store := Put(Empty(), u, b);
    assert Fold(p, mode, [a]) == Ok(sa);
    assert Fold(p, mode, [b]) == Ok(sb);
    assert Combine(a, b) == Ok(a.(count := 2));
    assert Fold(p, mode, [a, b]) == PreAggregate(p, mode, sa, b);
    assert |a.value.value.keys| > 0;
    assert AddValues(None, a.value.value) == Err(NilValueHash);
    assert Combine(b, a) == Err(NilValueHash);
    assert Fold(p, mode, [b, a]) == PreAggregate(p, mode, sb, a);
  }
}

=== FILE: aggregation_base.dfy ===
/** The single-node aggregation plugin: `format` turns an event into aggregation
    objects, `write` pre-aggregates a decoded chunk under MD5 identities. */
module AggregationBase {
  import opened Wrappers
  import opened Ruby
  import opened RubyHash
  import opened Metrics
  import opened Aggregation

  /** `names.zip(vals)`: one pair per name, padded with nil. */
  function Zip(names: seq<string>, vals: seq<Val>): (ps: seq<(string, Val)>)
    ensures |ps| == |names|
    ensures forall i :: 0 <= i < |ps| ==> ps[i].0 == names[i]
    ensures forall i :: 0 <= i < |ps| && i < |vals| ==> ps[i].1 == vals[i]
    ensures forall i :: |vals| <= i < |ps| ==> ps[i].1 == Nil
  {
    seq(|names|, i requires 0 <= i < |names| => (names[i], if i < |vals| then vals[i] else Nil))
  }

  /** The key hash of an object: each key name bound to the value extracted for it. */
  function KeyHash(m: Metric, keys: seq<Val>): Hash<string, Val> {
    FromPairs(Zip(m.keys, keys))
  }

  /** The object built for one applicable definition; the forwarding plugin also records
      the routing partition id. */
  function BuildObject(m: Metric, t: Tuple, pid: Option<int>): (o: AggRecord)
    ensures o.value.Some? <==> m.valueKey.Some?
    ensures m.valueKey.Some? ==> o.value.value.m == map[m.valueKey.value := t.value]
  {
    assert m.valueKey.Some? ==>
      FromPairs([(m.valueKey.value, t.value)]) == Put(Empty(), m.valueKey.value, t.value) by {
      if m.valueKey.Some? {
        assert [(m.valueKey.value, t.value)][..0] == [];
      }
    }
    AggRecord(
      m.name, pid, t.partition, KeyHash(m, t.keys), t.count,
      if m.valueKey.Some? then Some(FromPairs([(m.valueKey.value, t.value)])) else None)
  }

  /** What `format` appends to the buffer: the raw record, or the objects in order. */
  datatype Formatted = RawRecord(record: Record) | Objects(objs: seq<AggRecord>)

  /** `AggregationBase#format` */
  function Format(p: Prims, ms: seq<Metric>, time: int, r: Record): (f: Formatted)
    ensures f.RawRecord? <==> |ms| == 0
    ensures f.RawRecord? ==> f.record == r
    ensures f.Objects? ==>
      var applied := EachMetrics(p, ms, time, r);
      && |f.objs| == |applied|
      && forall i :: 0 <= i < |applied| ==>
           && f.objs[i].name == applied[i].0.name
           && f.objs[i].partitionId.None?
           && f.objs[i].partition == applied[i].1.partition
           && f.objs[i].count == applied[i].1.count
           && f.objs[i].key == KeyHash(applied[i].0, applied[i].1.keys)
           && (f.objs[i].value.Some? <==> applied[i].0.valueKey.Some?)
           && (applied[i].0.valueKey.Some? ==>
                 f.objs[i].value.value.m == map[applied[i].0.valueKey.value := applied[i].1.value])
  {
    if |ms| == 0 then RawRecord(r)
    else
      var applied := EachMetrics(p, ms, time, r);
      Objects(seq(|applied|, i requires 0 <= i < |applied| => BuildObject(applied[i].0, applied[i].1, None)))
  }

  /** Zipping key names with the values read for them binds each name to its value. */
  lemma KeyHashOfProjection(names: seq<string>, r: Record, vals: seq<Val>)
    requires |names| == 0 || vals == Project(names, r)
    ensures FromPairs(Zip(names, vals)).m.Keys == (set j | 0 <= j < |names| :: names[j])
    ensures forall j :: 0 <= j < |names| ==> FromPairs(Zip(names, vals)).m[names[j]] == Fetch(r, names[j])
  {
    var ps := Zip(names, vals);
    assert forall j :: 0 <= j < |ps| ==> ps[j] == (names[j], Fetch(r, names[j]));
    FromPairsKeys(ps);
    FromPairsLookup(ps);
    assert (set j | 0 <= j < |ps| :: ps[j].0) == (set j | 0 <= j < |names| :: names[j]);
  }

  /** An applicable configured definition's key hash maps each configured key name to the
      value read for it, and is empty without each_key. */
  lemma ObjectKeyHash(p: Prims, conf: MetricConf, m: Metric, time: int, r: Record, t: Tuple)
    requires Configure(p, conf) == Ok(m) && Evaluate(p, m, time, r) == Some(t)
    ensures KeyHash(m, t.keys).m.Keys == (set j | 0 <= j < |m.keys| :: m.keys[j])
    ensures forall j :: 0 <= j < |m.keys| ==> KeyHash(m, t.keys).m[m.keys[j]] == Fetch(r, m.keys[j])
    ensures conf.eachKey.None? ==> KeyHash(m, t.keys).m == map[]
  {
    assert KeysOf(m, r) == Some(t.keys);
    if conf.eachKey.Some? {
      KeysAllOrNothing(p, conf, m, r);
    } else {
      NameKeyWithoutEachKey(p, conf, m, r);
    }
    KeyHashOfProjection(m.keys, r, t.keys);
  }

  /** "value" is present exactly when value_key is configured, and then holds the evaluated
      value under that name. */
  lemma ObjectValueHash(p: Prims, conf: MetricConf, m: Metric, t: Tuple, pid: Option<int>)
    requires Configure(p, conf) == Ok(m)
    ensures BuildObject(m, t, pid).value.Some? <==> conf.valueKey.Some?
    ensures conf.valueKey.Some? ==> BuildObject(m, t, pid).value.value.m == map[conf.valueKey.value := t.value]
  {
    if conf.valueKey.Some? {
      var single := [(conf.valueKey.value, t.value)];
      assert single[..0] == [];
      assert FromPairs(single) == Put(Empty(), conf.valueKey.value, t.value);
    }
  }

  /** `AggregationBase#write`: a fresh store per chunk, one `pre_aggregate` per decoded object;
      running out of objects ends the chunk normally. */
  method Write(p: Prims, chunk: seq<AggRecord>) returns (r: Result<Store, Failure>)
    ensures r == Fold(p, Digest, chunk)
    ensures r.Ok? <==> Mergeable(p, Digest, chunk)
    ensures r.Ok? ==> Summarises(p, Digest, chunk, r.value)
  {
    FoldSummarises(p, Digest, chunk);
    var store: Store := Empty();
    var i := 0;
    while i < |chunk|
      invariant 0 <= i <= |chunk|
      invariant Fold(p, Digest, chunk[..i]) == Ok(store)
    {
      assert chunk[..i + 1][..i] == chunk[..i];
      var next := PreAggregate(p, Digest, store, chunk[i]);
      if next.Err? {
        FoldErrorIsFinal(p, Digest, chunk, i + 1);
        return next;
      }
      store := next.value;
      i := i + 1;
    }
    assert chunk[..i] == chunk;
    r := Ok(store);
  }

  /** The identity concatenates its parts without a separator, so objects with different
      names and partitions can share one identity. */
  lemma UidIgnoresFieldBoundaries(p: Prims, key: Hash<string, Val>)
    requires |key.keys| == 0
    ensures var a := AggRecord("ab", None, Str("c"), key, 1, None);
            var b := AggRecord("a", None, Str("bc"), key, 1, None);
            a.name != b.name && a.partition != b.partition && Uid(p, Digest, a) == Uid(p, Digest, b)
  {
    assert Values(key) == [];
    assert "ab" + "c" == "a" + "bc";
  }

  /** A two-field key hash, `{"host" => host, "path" => path}`. */
  function HostPathKey(host: string, path: string): (k: Hash<string, Val>)
    ensures Values(k) == [Str(host), Str(path)]
  {
    var keys := ["host", "path"];
    assert (set i | 0 <= i < |keys| :: keys[i]) == {"host", "path"} by {
      assert keys[0] == "host" && keys[1] == "path";
    }
    HashRep(keys, map["host" := Str(host), "path" := Str(path)])
  }

  /** Different key tuples can share an identity too: `["ab", "c"]` and `["a", "bc"]` join to
      the same text, under either plugin's identity. */
  lemma KeyTuplesCollide(p: Prims, mode: UidMode, name: string, text: string)
    ensures var a := AggRecord(name, None, Str(text), HostPathKey("ab", "c"), 1, None);
            var b := AggRecord(name, None, Str(text), HostPathKey("a", "bc"), 1, None);
            a.key != b.key && Uid(p, mode, a) == Uid(p, mode, b)
  {
    var k1, k2 := HostPathKey("ab", "c"), HostPathKey("a", "bc");
    assert Values(k1)[0] != Values(k2)[0];
    assert Join(p, [Str("c")]) == "c" && Join(p, [Str("bc")]) == "bc";
    assert Join(p, Values(k1)) == "abc" == Join(p, Values(k2));
  }
}

=== FILE: aggregation_forward.dfy ===
/** The forwarding aggregation plugin: events are routed to a partition id by hashing
    their key values, pre-aggregated per partition, and a partition's payload is sent to
    the first live node found by probing downwards from the partition id. */
module AggregationForward {
  import opened Wrappers
  import opened Ruby
  import opened RubyHash
  import opened Metrics
  import opened Aggregation
  import opened AggregationBase

  /** A configured downstream node: its socket address and whether it answers `available?`. */
  datatype Node = Node(addr: string, available: bool)

  // ---------------------------------------------------------------- configure

  /** No node's address sorts below an earlier node's. */
  predicate SortedByAddr(ns: seq<Node>) {
    forall i, j :: 0 <= i < j < |ns| ==> !StringLess(ns[j].addr, ns[i].addr)
  }

  lemma NotLessTransitive(a: string, b: string, c: string)
    requires !StringLess(b, a) && !StringLess(c, b)
    ensures !StringLess(c, a)
  {
    StringLessTotal(a, b);
    if StringLess(c, a) && StringLess(a, b) {
      StringLessTransitive(c, a, b);
    }
  }

  /** Prepending a node no later node sorts below keeps the list sorted. */
  lemma ConsSorted(x: Node, rest: seq<Node>)
    requires SortedByAddr(rest)
    requires forall j :: 0 <= j < |rest| ==> !StringLess(rest[j].addr, x.addr)
    ensures SortedByAddr([x] + rest)
  {
    var r := [x] + rest;
    forall i, j | 0 <= i < j < |r|
      ensures !StringLess(r[j].addr, r[i].addr)
    {
      assert r[j] == rest[j - 1];
      if i > 0 {
        assert r[i] == rest[i - 1];
      }
    }
  }

  function InsertByAddr(n: Node, ns: seq<Node>): (r: seq<Node>)
    requires SortedByAddr(ns)
    ensures SortedByAddr(r)
    ensures multiset(r) == multiset(ns) + multiset{n}
    decreases |ns|
  {
    if |ns| == 0 || !StringLess(ns[0].addr, n.addr) then
      assert forall j :: 0 <= j < |ns| ==> !StringLess(ns[j].addr, n.addr) by {
        forall j | 0 <= j < |ns|
          ensures !StringLess(ns[j].addr, n.addr)
        {
          if j == 0 {
            StringLessIrreflexive(ns[0].addr);
          }
          NotLessTransitive(n.addr, ns[0].addr, ns[j].addr);
        }
      }
      ConsSorted(n, ns);
      [n] + ns
    else
      var rest := InsertByAddr(n, ns[1..]);
      assert ns == [ns[0]] + ns[1..];
      assert forall j :: 0 <= j < |rest| ==> !StringLess(rest[j].addr, ns[0].addr) by {
        forall j | 0 <= j < |rest|
          ensures !StringLess(rest[j].addr, ns[0].addr)
        {
          assert rest[j] in multiset(rest);
          if rest[j] == n {
            StringLessAsymmetric(ns[0].addr, n.addr);
          } else {
            assert rest[j] in ns[1..];
          }
        }
      }
      ConsSorted(ns[0], rest);
      [ns[0]] + rest
  }

  /** The node list `configure` builds: the configured nodes ordered by socket address;
      `@num` is its length. */
  function NodeList(nodes: seq<Node>): (r: seq<Node>)
    ensures SortedByAddr(r)
    ensures multiset(r) == multiset(nodes)
    ensures |r| == |nodes|
    decreases |nodes|
  {
    if |nodes| == 0 then []
    else
      assert nodes == [nodes[0]] + nodes[1..];
      var r := InsertByAddr(nodes[0], NodeList(nodes[1..]));
      assert |multiset(r)| == |multiset(nodes)|;
      r
  }

  // ---------------------------------------------------------------- format

  /** `partition(key_hash)`: MD5 of the key values' `to_s`, as a number, modulo `@num`. */
  function Partition(p: Prims, key: Hash<string, Val>, num: nat): (r: Result<nat, Failure>)
    ensures r.Ok? <==> num > 0
    ensures r.Ok? ==> r.value < num
  {
    if num == 0 then Err(DivideByZero)
    else Ok(p.hexToNat(p.md5Hex(p.inspect(Values(key)))) % num)
  }

  /** The partition id depends on the key values and the node count only, not on the key names. */
  lemma PartitionDependsOnValuesOnly(p: Prims, k1: Hash<string, Val>, k2: Hash<string, Val>, num: nat)
    requires Values(k1) == Values(k2)
    ensures Partition(p, k1, num) == Partition(p, k2, num)
  {
  }

  /** What `format` returns: the raw record, nil, or `[partition_id, obj]`. */
  datatype FwdFormatted = FwdRaw(record: Record) | FwdNil | FwdEntry(partitionId: nat, obj: AggRecord)

  /** The `each_metrics` block, assigning `result` for every applicable definition in turn. */
  function Overwrite(p: Prims, num: nat, applied: seq<(Metric, Tuple)>, acc: FwdFormatted): Result<FwdFormatted, Failure>
    decreases |applied|
  {
    if |applied| == 0 then Ok(acc)
    else
      var m, t := applied[0].0, applied[0].1;
      var pid :- Partition(p, KeyHash(m, t.keys), num);
      Overwrite(p, num, applied[1..], FwdEntry(pid, BuildObject(m, t, Some(pid))))
  }

  /** `ForwardAggregationOutput#format` */
  function Format(p: Prims, ms: seq<Metric>, num: nat, time: int, r: Record): Result<FwdFormatted, Failure> {
    if |ms| == 0 then Ok(FwdRaw(r)) else Overwrite(p, num, EachMetrics(p, ms, time, r), FwdNil)
  }

  /** The entry built for the last of the applicable definitions. */
  function LastEntry(p: Prims, num: nat, applied: seq<(Metric, Tuple)>): FwdFormatted
    requires |applied| > 0 && num > 0
  {
    var m, t := applied[|applied| - 1].0, applied[|applied| - 1].1;
    var pid := Partition(p, KeyHash(m, t.keys), num).value;
    FwdEntry(pid, BuildObject(m, t, Some(pid)))
  }

  lemma {:induction false} OverwriteKeepsLast(p: Prims, num: nat, applied: seq<(Metric, Tuple)>, acc: FwdFormatted)
    ensures num == 0 && |applied| > 0 ==> Overwrite(p, num, applied, acc) == Err(DivideByZero)
    ensures num > 0 ==> Overwrite(p, num, applied, acc) == Ok(if |applied| == 0 then acc else LastEntry(p, num, applied))
    decreases |applied|
  {
    if |applied| > 0 && num > 0 {
      var m, t := applied[0].0, applied[0].1;
      var pid := Partition(p, KeyHash(m, t.keys), num).value;
      OverwriteKeepsLast(p, num, applied[1..], FwdEntry(pid, BuildObject(m, t, Some(pid))));
      if |applied| > 1 {
        assert applied[1..][|applied[1..]| - 1] == applied[|applied| - 1];
      }
    }
  }

  /** Without definitions `format` passes the record through; with none applicable it returns
      nil; with no node the first applicable definition raises. */
  lemma FormatWithoutEntry(p: Prims, ms: seq<Metric>, num: nat, time: int, r: Record)
    ensures |ms| == 0 ==> Format(p, ms, num, time, r) == Ok(FwdRaw(r))
    ensures |ms| > 0 && |EachMetrics(p, ms, time, r)| == 0 ==> Format(p, ms, num, time, r) == Ok(FwdNil)
    ensures |ms| > 0 && |EachMetrics(p, ms, time, r)| > 0 && num == 0 ==> Format(p, ms, num, time, r) == Err(DivideByZero)
  {
    OverwriteKeepsLast(p, num, EachMetrics(p, ms, time, r), FwdNil);
  }

  /** `format` keeps only the last applicable definition's object: earlier ones are
      overwritten. It is the single-node object of that definition, tagged with its partition id. */
  lemma FormatKeepsLastApplicable(p: Prims, ms: seq<Metric>, num: nat, time: int, r: Record)
    requires |ms| > 0 && |EachMetrics(p, ms, time, r)| > 0 && num > 0
    ensures var objs := AggregationBase.Format(p, ms, time, r).objs;
      var f := Format(p, ms, num, time, r);
      && f.Ok? && f.value.FwdEntry?
      && f.value.partitionId < num
      && f.value.partitionId == Partition(p, objs[|objs| - 1].key, num).value
      && f.value.obj == objs[|objs| - 1].(partitionId := Some(f.value.partitionId))
  {
    var applied := EachMetrics(p, ms, time, r);
    OverwriteKeepsLast(p, num, applied, FwdNil);
    var objs := AggregationBase.Format(p, ms, time, r).objs;
    var m, t := applied[|applied| - 1].0, applied[|applied| - 1].1;
    var pid := Partition(p, KeyHash(m, t.keys), num).value;
    assert Format(p, ms, num, time, r) == Ok(FwdEntry(pid, BuildObject(m, t, Some(pid))));
    assert objs[|objs| - 1] == BuildObject(m, t, None);
    assert BuildObject(m, t, Some(pid)) == BuildObject(m, t, None).(partitionId := Some(pid));
  }

  // ---------------------------------------------------------------- write

  /** `@pre_aggregation`, filled per partition id: each partition has its own store,
      keyed by the unhashed identity. */
  function PreAggregateAll(p: Prims, chunk: seq<(int, AggRecord)>): Result<Hash<int, Store>, Failure>
    decreases |chunk|
  {
    if |chunk| == 0 then Ok(Empty())
    else
      var outer :- PreAggregateAll(p, chunk[..|chunk| - 1]);
      var pid, a := chunk[|chunk| - 1].0, chunk[|chunk| - 1].1;
      var inner := if pid in outer.m then outer.m[pid] else Empty();
      var inner' :- PreAggregate(p, Plain, inner, a);
      Ok(Put(outer, pid, inner'))
  }

  /** The objects of the chunk routed to partition `pid`, in order. */
  function Routed(chunk: seq<(int, AggRecord)>, pid: int): seq<AggRecord>
    decreases |chunk|
  {
    if |chunk| == 0 then []
    else Routed(chunk[..|chunk| - 1], pid) + (if chunk[|chunk| - 1].0 == pid then [chunk[|chunk| - 1].1] else [])
  }

  lemma FoldAppend(p: Prims, mode: UidMode, rs: seq<AggRecord>, a: AggRecord)
    ensures Fold(p, mode, rs + [a]) == (if Fold(p, mode, rs).Err? then Fold(p, mode, rs) else PreAggregate(p, mode, Fold(p, mode, rs).value, a))
  {
    assert (rs + [a])[..|rs|] == rs;
  }

  /** A partition's store before any object is routed to it. */
  function Inner(outer: Hash<int, Store>, pid: int): Store {
    if pid in outer.m then outer.m[pid] else Empty()
  }

  /** One object routed to `q` extends the routing of `q` alone. */
  lemma RoutedStep(chunk: seq<(int, AggRecord)>, pid: int)
    requires |chunk| > 0
    ensures Routed(chunk, pid) ==
      Routed(chunk[..|chunk| - 1], pid) + (if chunk[|chunk| - 1].0 == pid then [chunk[|chunk| - 1].1] else [])
  {
  }

  /** The partition the last object is routed to: its store is the previous one with that
      object merged in, and it is the pre-aggregation of that partition's objects. */
  lemma RoutedToLast(p: Prims, chunk: seq<(int, AggRecord)>)
    requires |chunk| > 0 && PreAggregateAll(p, chunk).Ok?
    requires var pre := chunk[..|chunk| - 1];
      PreAggregateAll(p, pre).Ok? &&
      Fold(p, Plain, Routed(pre, chunk[|chunk| - 1].0)) == Ok(Inner(PreAggregateAll(p, pre).value, chunk[|chunk| - 1].0))
    ensures var q := chunk[|chunk| - 1].0;
      Fold(p, Plain, Routed(chunk, q)) == Ok(PreAggregateAll(p, chunk).value.m[q])
  {
    var pre := chunk[..|chunk| - 1];
    var q, a := chunk[|chunk| - 1].0, chunk[|chunk| - 1].1;
    RoutedStep(chunk, q);
    FoldAppend(p, Plain, Routed(pre, q), a);
  }

  /** Each partition's store is the single-partition pre-aggregation of the objects routed
      to it: objects in different partitions never merge. */
  lemma {:induction false} PartitionsMergeSeparately(p: Prims, chunk: seq<(int, AggRecord)>)
    requires PreAggregateAll(p, chunk).Ok?
    ensures var outer := PreAggregateAll(p, chunk).value;
      && (forall pid :: pid in outer.m <==> |Routed(chunk, pid)| > 0)
      && (forall pid :: pid in outer.m ==> Fold(p, Plain, Routed(chunk, pid)) == Ok(outer.m[pid]))
    decreases |chunk|
  {
    if |chunk| > 0 {
      var pre := chunk[..|chunk| - 1];
      var q, a := chunk[|chunk| - 1].0, chunk[|chunk| - 1].1;
      PartitionsMergeSeparately(p, pre);
      var outer := PreAggregateAll(p, pre).value;
      var outer' := PreAggregateAll(p, chunk).value;
      assert outer'.m == outer.m[q := PreAggregate(p, Plain, Inner(outer, q), a).value];
      if q !in outer.m {
        assert Routed(pre, q) == [];
      }
      RoutedToLast(p, chunk);
      forall pid
        ensures pid in outer'.m <==> |Routed(chunk, pid)| > 0
        ensures pid in outer'.m ==> Fold(p, Plain, Routed(chunk, pid)) == Ok(outer'.m[pid])
      {
        RoutedStep(chunk, pid);
        if pid != q {
          assert Routed(chunk, pid) == Routed(pre, pid);
          if pid in outer'.m {
            assert outer'.m[pid] == outer.m[pid];
          }
        }
      }
    }
  }

  /** When the whole pre-aggregation succeeds, so does every partition's. */
  lemma EveryPartitionMerges(p: Prims, chunk: seq<(int, AggRecord)>)
    requires PreAggregateAll(p, chunk).Ok?
    ensures forall pid :: Fold(p, Plain, Routed(chunk, pid)).Ok?
  {
    PartitionsMergeSeparately(p, chunk);
    forall pid
      ensures Fold(p, Plain, Routed(chunk, pid)).Ok?
    {
      if |Routed(chunk, pid)| == 0 {
        assert Fold(p, Plain, Routed(chunk, pid)) == Ok(Empty());
      }
    }
  }

  /** When the whole pre-aggregation fails, some partition's pre-aggregation fails on its own. */
  lemma {:induction false} SomePartitionFails(p: Prims, chunk: seq<(int, AggRecord)>)
    requires PreAggregateAll(p, chunk).Err?
    ensures exists pid :: Fold(p, Plain, Routed(chunk, pid)).Err?
    decreases |chunk|
  {
    var pre := chunk[..|chunk| - 1];
    var q, a := chunk[|chunk| - 1].0, chunk[|chunk| - 1].1;
    assert Routed(chunk, q) == Routed(pre, q) + [a];
    FoldAppend(p, Plain, Routed(pre, q), a);
    if PreAggregateAll(p, pre).Err? {
      SomePartitionFails(p, pre);
      var pid :| Fold(p, Plain, Routed(pre, pid)).Err?;
      if pid != q {
        assert Routed(chunk, pid) == Routed(pre, pid);
      }
      assert Fold(p, Plain, Routed(chunk, pid)).Err?;
    } else {
      PartitionsMergeSeparately(p, pre);
      var outer := PreAggregateAll(p, pre).value;
      if q !in outer.m {
        assert Routed(pre, q) == [];
      }
      assert Fold(p, Plain, Routed(chunk, q)).Err?;
    }
  }

  /** The first partition in `@pre_aggregation`'s order is that of the chunk's first object. */
  lemma {:induction false} FirstPartitionIsFirstObjects(p: Prims, chunk: seq<(int, AggRecord)>)
    requires PreAggregateAll(p, chunk).Ok?
    ensures |PreAggregateAll(p, chunk).value.keys| == 0 <==> |chunk| == 0
    ensures |chunk| > 0 ==> PreAggregateAll(p, chunk).value.keys[0] == chunk[0].0
    decreases |chunk|
  {
    if |chunk| > 0 {
      var pre := chunk[..|chunk| - 1];
      FirstPartitionIsFirstObjects(p, pre);
      if |pre| > 0 {
        assert pre[0] == chunk[0];
      }
    }
  }

  /** The entry time of a merged object: its partition string parsed as a time, in epoch
      seconds; a partition that is not a String, or does not parse, raises. */
  function PartitionTime(p: Prims, partition: Val): Result<int, Failure> {
    match partition
    case Str(s) => (match p.parseTime(s) case None => Err(UnparsableTime(s)) case Some(t) => Ok(t))
    case _ => Err(NotAString)
  }

  /** Every object's partition parses as a time. */
  predicate AllTimesParse(p: Prims, objs: seq<AggRecord>) {
    forall i :: 0 <= i < |objs| ==> PartitionTime(p, objs[i].partition).Ok?
  }

  /** `[time, record]` for each merged object, in order. */
  function Entries(p: Prims, objs: seq<AggRecord>): (r: Result<seq<(int, AggRecord)>, Failure>)
    ensures r.Ok? <==> AllTimesParse(p, objs)
    ensures r.Ok? ==> |r.value| == |objs|
    ensures r.Ok? ==> forall i :: 0 <= i < |objs| ==>
      r.value[i].1 == objs[i] && PartitionTime(p, objs[i].partition) == Ok(r.value[i].0)
    decreases |objs|
  {
    if |objs| == 0 then Ok([])
    else
      var time :- PartitionTime(p, objs[0].partition);
      var rest :- Entries(p, objs[1..]);
      assert forall i :: 1 <= i < |objs| ==> objs[i] == objs[1..][i - 1];
      Ok([(time, objs[0])] + rest)
  }

  /** The first `n` partitions' stores all parse exactly when the first `n - 1` do and the
      `n`-th does. */
  lemma PrefixParses(p: Prims, outer: Hash<int, Store>, n: nat)
    requires 0 < n <= |outer.keys|
    ensures (forall i :: 0 <= i < n ==> AllTimesParse(p, Values(Values(outer)[i]))) <==>
      (forall i :: 0 <= i < n - 1 ==> AllTimesParse(p, Values(Values(outer)[i])))
      && AllTimesParse(p, Values(Values(outer)[n - 1]))
  {
  }

  /** `partitioned_hash` for the first `n` partitions, in order. */
  function Payloads(p: Prims, outer: Hash<int, Store>, n: nat): (r: Result<Hash<int, seq<(int, AggRecord)>>, Failure>)
    requires n <= |outer.keys|
    ensures r.Ok? ==> r.value.keys == outer.keys[..n]
    ensures r.Ok? ==> forall pid :: pid in r.value.m ==>
      pid in outer.m && Entries(p, Values(outer.m[pid])) == Ok(r.value.m[pid])
    decreases n
  {
    if n == 0 then Ok(Empty())
    else
      var pid := outer.keys[n - 1];
      KeyIn(outer, n - 1);
      var h :- Payloads(p, outer, n - 1);
      assert pid !in h.keys;
      assert outer.keys[..n] == outer.keys[..n - 1] + [pid];
      var payload :- Entries(p, Values(outer.m[pid]));
      Ok(Put(h, pid, payload))
  }

  /** Building the payloads of the first `n` partitions raises exactly when some of their
      stores holds an object whose partition does not parse as a time. */
  lemma {:induction false} PayloadsOk(p: Prims, outer: Hash<int, Store>, n: nat)
    requires n <= |outer.keys|
    ensures Payloads(p, outer, n).Ok? <==> forall i :: 0 <= i < n ==> AllTimesParse(p, Values(Values(outer)[i]))
    decreases n
  {
    if n > 0 {
      KeyIn(outer, n - 1);
      assert Values(outer)[n - 1] == outer.m[outer.keys[n - 1]];
      PayloadsOk(p, outer, n - 1);
      PrefixParses(p, outer, n);
    }
  }

  /** `get_partitioned_records(chunk)` */
  function PartitionedRecords(p: Prims, chunk: seq<(int, AggRecord)>): Result<Hash<int, seq<(int, AggRecord)>>, Failure> {
    var outer :- PreAggregateAll(p, chunk);
    Payloads(p, outer, |outer.keys|)
  }

  /** Checking the stores in partition order is checking every partition's store. */
  lemma AllPartitionsParse(p: Prims, outer: Hash<int, Store>)
    ensures (forall i :: 0 <= i < |outer.keys| ==> AllTimesParse(p, Values(Values(outer)[i]))) <==>
      (forall pid :: pid in outer.m ==> AllTimesParse(p, Values(outer.m[pid])))
  {
    if forall i :: 0 <= i < |outer.keys| ==> AllTimesParse(p, Values(Values(outer)[i])) {
      forall pid | pid in outer.m
        ensures AllTimesParse(p, Values(outer.m[pid]))
      {
        var ks := set i | 0 <= i < |outer.keys| :: outer.keys[i];
        assert outer.m.Keys == ks;
        var i :| 0 <= i < |outer.keys| && outer.keys[i] == pid;
        assert Values(outer)[i] == outer.m[pid];
      }
    }
    if forall pid :: pid in outer.m ==> AllTimesParse(p, Values(outer.m[pid])) {
      forall i | 0 <= i < |outer.keys|
        ensures AllTimesParse(p, Values(Values(outer)[i]))
      {
        KeyIn(outer, i);
        assert Values(outer)[i] == outer.m[outer.keys[i]];
      }
    }
  }

  /** `get_partitioned_records` raises exactly when the per-partition merge raises or some
      merged object's partition does not parse as a time. */
  lemma PartitionedRecordsOk(p: Prims, chunk: seq<(int, AggRecord)>)
    ensures PartitionedRecords(p, chunk).Ok? <==>
      && PreAggregateAll(p, chunk).Ok?
      && forall pid :: pid in PreAggregateAll(p, chunk).value.m ==>
           AllTimesParse(p, Values(PreAggregateAll(p, chunk).value.m[pid]))
  {
    if PreAggregateAll(p, chunk).Ok? {
      var outer := PreAggregateAll(p, chunk).value;
      PayloadsOk(p, outer, |outer.keys|);
      AllPartitionsParse(p, outer);
    }
  }

  /** Each partition's payload has one entry per identity merged in that partition, in
      first-seen order: the merged object of the objects routed there, with its partition time. */
  lemma PayloadPerPartition(p: Prims, chunk: seq<(int, AggRecord)>, pid: int)
    requires PartitionedRecords(p, chunk).Ok?
    requires pid in PartitionedRecords(p, chunk).value.m
    ensures var s := Fold(p, Plain, Routed(chunk, pid));
      var payload := PartitionedRecords(p, chunk).value.m[pid];
      && s.Ok?
      && |payload| == |s.value.keys|
      && forall i :: 0 <= i < |payload| ==>
           && payload[i].1 == Values(s.value)[i]
           && PartitionTime(p, payload[i].1.partition) == Ok(payload[i].0)
  {
    var outer := PreAggregateAll(p, chunk).value;
    PartitionsMergeSeparately(p, chunk);
  }

  /** The index the k-th probe reads, counting down from `pid`, or None when it reads nil. */
  function Probed(n: nat, pid: int, k: nat): Option<nat> {
    ArrayIndex(n, pid - k)
  }

  /** The failover loop: probes `k`, `k + 1`, ... up to `@num` probes in all. */
  function Probe(nodes: seq<Node>, pid: int, k: nat): Result<nat, Failure>
    decreases |nodes| - k
  {
    if k >= |nodes| then Err(NoNodesAvailable)
    else match Probed(|nodes|, pid, k)
      case None => Err(NilNode(pid - k))
      case Some(j) => if nodes[j].available then Ok(j) else Probe(nodes, pid, k + 1)
  }

  /** The index the k-th probe reads from a valid partition id. */
  lemma ProbedIndex(n: nat, pid: int, k: nat)
    requires 0 <= pid < n && k < n
    ensures Probed(n, pid, k) == Some(if k <= pid then pid - k else pid - k + n)
  {
  }

  /** From a valid partition id, the `@num` probes visit every node exactly once. */
  lemma ProbeVisitsEachNodeOnce(n: nat, pid: int)
    requires 0 <= pid < n
    ensures forall k :: 0 <= k < n ==> Probed(n, pid, k).Some?
    ensures forall k1, k2 :: 0 <= k1 < k2 < n ==> Probed(n, pid, k1) != Probed(n, pid, k2)
    ensures forall j :: 0 <= j < n ==> Probed(n, pid, if j <= pid then pid - j else pid - j + n) == Some(j)
  {
    forall k | 0 <= k < n
      ensures Probed(n, pid, k).Some?
    {
      ProbedIndex(n, pid, k);
    }
    forall k1, k2 | 0 <= k1 < k2 < n
      ensures Probed(n, pid, k1) != Probed(n, pid, k2)
    {
      ProbedIndex(n, pid, k1);
      ProbedIndex(n, pid, k2);
    }
    forall j | 0 <= j < n
      ensures Probed(n, pid, if j <= pid then pid - j else pid - j + n) == Some(j)
    {
      ProbedIndex(n, pid, if j <= pid then pid - j else pid - j + n);
    }
  }

  /** From a valid partition id the probe never reads nil: it finds a live node, or gives up
      exactly when every remaining probe hits a dead one. */
  lemma {:induction false} ProbeFromValidPartition(nodes: seq<Node>, pid: int, k: nat)
    requires 0 <= pid < |nodes| && k <= |nodes|
    ensures Probe(nodes, pid, k).Ok? || Probe(nodes, pid, k) == Err(NoNodesAvailable)
    ensures Probe(nodes, pid, k) == Err(NoNodesAvailable) <==>
      forall k' :: k <= k' < |nodes| ==> !nodes[Probed(|nodes|, pid, k').value].available
    decreases |nodes| - k
  {
    if k < |nodes| {
      assert Probed(|nodes|, pid, k).Some?;
      ProbeFromValidPartition(nodes, pid, k + 1);
    }
  }

  /** The node-failover loop of `write`. */
  method SelectNode(nodes: seq<Node>, pid: int) returns (r: Result<nat, Failure>)
    ensures r == Probe(nodes, pid, 0)
    ensures r.Ok? ==> r.value < |nodes| && nodes[r.value].available
    ensures r.Ok? ==>
      exists k :: 0 <= k < |nodes| && Probed(|nodes|, pid, k) == Some(r.value) &&
        (forall k' :: 0 <= k' < k ==> Probed(|nodes|, pid, k').Some? && !nodes[Probed(|nodes|, pid, k').value].available)
    ensures r == Err(NoNodesAvailable) ==>
      forall k :: 0 <= k < |nodes| ==> Probed(|nodes|, pid, k).Some? && !nodes[Probed(|nodes|, pid, k).value].available
    ensures 0 <= pid < |nodes| ==> r.Ok? || r == Err(NoNodesAvailable)
    ensures 0 <= pid < |nodes| ==> (r == Err(NoNodesAvailable) <==> forall j :: 0 <= j < |nodes| ==> !nodes[j].available)
  {
    var n := |nodes|;
    if 0 <= pid < n {
      ProbeVisitsEachNodeOnce(n, pid);
    }
    var k: nat := 0;
    while k < n
      invariant k <= n
      invariant Probe(nodes, pid, 0) == Probe(nodes, pid, k)
      invariant forall k' :: 0 <= k' < k ==> Probed(n, pid, k').Some? && !nodes[Probed(n, pid, k').value].available
    {
      match Probed(n, pid, k)
      case None =>
        return Err(NilNode(pid - k));
      case Some(j) =>
        if nodes[j].available {
          assert Probed(n, pid, k) == Some(j);
          return Ok(j);
        }
      k := k + 1;
    }
    r := Err(NoNodesAvailable);
    if 0 <= pid < n {
      forall j | 0 <= j < n
        ensures !nodes[j].available
      {
        var k' := if j <= pid then pid - j else pid - j + n;
        assert Probed(n, pid, k') == Some(j);
      }
    }
  }

  /** What `write` hands to `send_data`: the node index, the partition id and its payload. */
  datatype Delivery = Delivery(node: nat, partitionId: int, payload: seq<(int, AggRecord)>)

  /** `ForwardAggregationOutput#write`: the `return` inside the loop leaves `write` after the
      first partition is sent, so at most one partition of a chunk is ever delivered. */
  function Write(p: Prims, chunk: seq<(int, AggRecord)>, nodes: seq<Node>): Result<Option<Delivery>, Failure> {
    var parts :- PartitionedRecords(p, chunk);
    if |parts.keys| == 0 then Ok(None)
    else
      var pid := parts.keys[0];
      var j :- Probe(nodes, pid, 0);
      Ok(Some(Delivery(j, pid, parts.m[pid])))
  }

  /** An empty chunk sends nothing; otherwise only the partition of the chunk's first object is
      sent, to the first live node in probe order, and every other partition is dropped. */
  lemma WriteSendsFirstPartitionOnly(p: Prims, chunk: seq<(int, AggRecord)>, nodes: seq<Node>)
    requires PartitionedRecords(p, chunk).Ok?
    ensures |chunk| == 0 ==> Write(p, chunk, nodes) == Ok(None)
    ensures |chunk| > 0 ==> Write(p, chunk, nodes).Err? || Write(p, chunk, nodes).value.Some?
    ensures Write(p, chunk, nodes).Ok? && Write(p, chunk, nodes).value.Some? ==>
      var d := Write(p, chunk, nodes).value.value;
      && |chunk| > 0
      && d.partitionId == chunk[0].0
      && d.node < |nodes| && nodes[d.node].available
      && d.payload == PartitionedRecords(p, chunk).value.m[d.partitionId]
      && Probe(nodes, d.partitionId, 0) == Ok(d.node)
      && exists k :: 0 <= k < |nodes| && Probed(|nodes|, d.partitionId, k) == Some(d.node) &&
           (forall k' :: 0 <= k' < k ==> Probed(|nodes|, d.partitionId, k').Some? && !nodes[Probed(|nodes|, d.partitionId, k').value].available)
  {
    FirstPartitionIsFirstObjects(p, chunk);
    var parts := PartitionedRecords(p, chunk).value;
    assert parts.keys == PreAggregateAll(p, chunk).value.keys;
    if |parts.keys| > 0 && Probe(nodes, parts.keys[0], 0).Ok? {
      ProbeFindsLiveNode(nodes, parts.keys[0], 0);
      ProbeIsFirstLive(nodes, parts.keys[0], 0);
    }
  }

  /** A probe that succeeds lands on a live node. */
  lemma {:induction false} ProbeFindsLiveNode(nodes: seq<Node>, pid: int, k: nat)
    requires Probe(nodes, pid, k).Ok?
    ensures Probe(nodes, pid, k).value < |nodes| && nodes[Probe(nodes, pid, k).value].available
    decreases |nodes| - k
  {
    match Probed(|nodes|, pid, k)
    case None =>
    case Some(j) =>
      if !nodes[j].available {
        ProbeFindsLiveNode(nodes, pid, k + 1);
      }
  }

  /** A successful probe returns the first live node in probe order: it is read by some
      probe at or after `k`, and every earlier probe from `k` read a node that is down. */
  lemma {:induction false} ProbeIsFirstLive(nodes: seq<Node>, pid: int, k: nat)
    requires Probe(nodes, pid, k).Ok?
    ensures
      exists k' :: k <= k' < |nodes| && Probed(|nodes|, pid, k') == Some(Probe(nodes, pid, k).value) &&
        (forall k'' :: k <= k'' < k' ==> Probed(|nodes|, pid, k'').Some? && !nodes[Probed(|nodes|, pid, k'').value].available)
    decreases |nodes| - k
  {
    match Probed(|nodes|, pid, k)
    case None =>
    case Some(j) =>
      if nodes[j].available {
        assert Probed(|nodes|, pid, k) == Some(Probe(nodes, pid, k).value);
      } else {
        ProbeIsFirstLive(nodes, pid, k + 1);
        var k' :| k + 1 <= k' < |nodes| && Probed(|nodes|, pid, k') == Some(Probe(nodes, pid, k + 1).value) &&
          forall k'' :: k + 1 <= k'' < k' ==> Probed(|nodes|, pid, k'').Some? && !nodes[Probed(|nodes|, pid, k'').value].available;
        assert Probed(|nodes|, pid, k') == Some(Probe(nodes, pid, k).value);
      }
  }

  /** From a valid partition id the probe gives up exactly when every node is down. */
  lemma ProbeGivesUpIffAllDown(nodes: seq<Node>, pid: int)
    requires 0 <= pid < |nodes|
    ensures Probe(nodes, pid, 0) == Err(NoNodesAvailable) <==> forall j :: 0 <= j < |nodes| ==> !nodes[j].available
  {
    ProbeFromValidPartition(nodes, pid, 0);
    ProbeVisitsEachNodeOnce(|nodes|, pid);
    if forall k :: 0 <= k < |nodes| ==> !nodes[Probed(|nodes|, pid, k).value].available {
      forall j | 0 <= j < |nodes|
        ensures !nodes[j].available
      {
        var k := if j <= pid then pid - j else pid - j + |nodes|;
        assert Probed(|nodes|, pid, k) == Some(j);
      }
    }
  }

  /** With a valid first partition id, `write` gives up for want of nodes exactly when every
      node is down. */
  lemma WriteFailsOnlyWhenAllNodesDown(p: Prims, chunk: seq<(int, AggRecord)>, nodes: seq<Node>)
    requires PartitionedRecords(p, chunk).Ok?
    requires |chunk| > 0 && 0 <= chunk[0].0 < |nodes|
    ensures Write(p, chunk, nodes) == Err(NoNodesAvailable) <==> forall j :: 0 <= j < |nodes| ==> !nodes[j].available
  {
    FirstPartitionIsFirstObjects(p, chunk);
    var parts := PartitionedRecords(p, chunk).value;
    assert parts.keys == PreAggregateAll(p, chunk).value.keys;
    assert parts.keys[0] == chunk[0].0;
    ProbeGivesUpIffAllDown(nodes, chunk[0].0);
  }
}

=== FILE: metrics.dfy ===
/** Metric definitions: configuration of one `<metrics>` element into precomputed
    extraction rules, and evaluation of one event record against it. */
module Metrics {
  import opened Wrappers
  import opened Ruby

  /** The parameters of one `<metrics>` element, each present or absent. */
  datatype MetricConf = MetricConf(
    name: Option<string>,
    eachKey: Option<string>,
    valueKey: Option<string>,
    defaultValue: Option<string>,
    countKey: Option<string>,
    typ: Option<string>,
    localtime: Option<string>,
    utc: Option<string>,
    partitionKey: Option<string>,
    partitionBy: Option<string>)

  /** Fluent::ConfigError, by cause. */
  datatype ConfigError =
    | MissingName                          // 'name' parameter is required
    | UnexpectedType(given: string)        // expected int or float
    | UnexpectedPartitionBy(given: string) // expected daily, hourly, minutely or secondly

  datatype NumType = IntType | FloatType

  /** How a definition reads its grouping key (the `@key_proc` closures). */
  datatype KeyRule =
    | NameKey                          // no each_key: the key is `[name]`
    | SingleKey(field: string)         // exactly one key field
    | CombinedKey(fields: seq<string>) // any other number of key fields

  /** How a definition reads its value (the `@value_proc` closures). */
  datatype ValueRule =
    | FieldValue(field: string, numType: NumType, dflt: Option<real>)
    | ConstValue(v: real)

  /** How a definition reads its count (the `@count_proc` closures). */
  datatype CountRule = CountField(field: string) | CountOne

  /** How a definition labels its partition (the `@partition_proc` closures). */
  datatype PartitionRule =
    | RawPartition(field: string)
    | TimePartition(format: string, localtime: bool)

  /** A configured definition: its public attributes and its precomputed rules. */
  datatype Metric = Metric(
    name: string,
    keys: seq<string>,
    valueKey: Option<string>,
    countKey: Option<string>,
    keyRule: KeyRule,
    valueRule: ValueRule,
    countRule: CountRule,
    partitionRule: PartitionRule)

  /** What `evaluate` returns for a record the definition applies to. */
  datatype Tuple = Tuple(keys: seq<Val>, value: real, count: int, partition: Val)

  const DailyFormat: string := "%Y-%m-%d"
  const HourlyFormat: string := "%Y-%m-%d %H"
  const MinutelyFormat: string := "%Y-%m-%d %H:%M"
  /** The secondly format as the code writes it: its `$H:$M` are literal text, not
      format directives. */
  const SecondlyFormat: string := "%Y-%m-%d $H:$M:%S"
  const DefaultPartitionBy: string := "h"

  // ---------------------------------------------------------------- configure

  /** The `type` parameter: int unless given. */
  function ParseType(given: Option<string>): (r: Result<NumType, ConfigError>)
    ensures r.Ok? <==> KnownType(given)
    ensures r.Err? ==> r == Err(UnexpectedType(given.value))
  {
    match given
    case None => Ok(IntType)
    case Some(t) =>
      if t == "int" then Ok(IntType)
      else if t == "float" then Ok(FloatType)
      else Err(UnexpectedType(t))
  }

  /** The strftime format of a `partition_by` name or alias. */
  function TimeFormatFor(granularity: string): (f: Option<string>)
    ensures f.Some? <==> KnownGranularity(granularity)
    ensures granularity == DefaultPartitionBy ==> f == Some(HourlyFormat)
  {
    if granularity == "daily" || granularity == "day" || granularity == "d" then Some(DailyFormat)
    else if granularity == "hourly" || granularity == "hour" || granularity == "h" then Some(HourlyFormat)
    else if granularity == "minutely" || granularity == "minute" || granularity == "m" then Some(MinutelyFormat)
    else if granularity == "secondly" || granularity == "second" || granularity == "s" then Some(SecondlyFormat)
    else None
  }

  /** The each_key list: split at commas, each name stripped of surrounding whitespace. */
  function ParseKeys(eachKey: string): seq<string> {
    var pieces := Split(eachKey, ',');
    seq(|pieces|, i requires 0 <= i < |pieces| => Strip(pieces[i]))
  }

  /** `create_combined_key_proc(keys)` */
  function CombinedKeyRule(keys: seq<string>): KeyRule {
    if |keys| == 1 then SingleKey(keys[0]) else CombinedKey(keys)
  }

  /** `val.to_i` or `val.to_f`, by the definition's type. */
  function Convert(p: Prims, ty: NumType, v: Val): real {
    match ty
    case IntType => ToI(p, v) as real
    case FloatType => ToF(p, v)
  }

  function ValueRuleFor(p: Prims, ty: NumType, valueKey: Option<string>, defaultValue: Option<string>): ValueRule {
    var dv := if defaultValue.Some? then Some(Convert(p, ty, Str(defaultValue.value))) else None;
    match valueKey
    case Some(vk) => FieldValue(vk, ty, dv)
    case None => ConstValue(if dv.Some? then dv.value else 1.0)
  }

  function PartitionRuleFor(conf: MetricConf, localtime: bool): (r: Result<PartitionRule, ConfigError>)
    ensures r.Ok? <==> conf.partitionKey.Some? || KnownGranularity(PartitionByOf(conf))
    ensures r.Err? ==> r == Err(UnexpectedPartitionBy(PartitionByOf(conf)))
  {
    match conf.partitionKey
    case Some(pk) => Ok(RawPartition(pk))
    case None =>
      var granularity := if conf.partitionBy.Some? then conf.partitionBy.value else DefaultPartitionBy;
      match TimeFormatFor(granularity)
      case None => Err(UnexpectedPartitionBy(granularity))
      case Some(f) => Ok(TimePartition(f, localtime))
  }

  /** The `type` values `configure` accepts. */
  predicate KnownType(t: Option<string>) {
    t.None? || t.value in {"int", "float"}
  }

  /** The `partition_by` values `configure` accepts. */
  predicate KnownGranularity(granularity: string) {
    granularity in {"daily", "day", "d", "hourly", "hour", "h", "minutely", "minute", "m", "secondly", "second", "s"}
  }

  /** The `partition_by` value in effect. */
  function PartitionByOf(conf: MetricConf): string {
    if conf.partitionBy.Some? then conf.partitionBy.value else DefaultPartitionBy
  }

  /** `Metrics#configure`. Checks run in order: name, type, then partition_by;
      partition_by is not checked at all when partition_key is given. */
  function Configure(p: Prims, conf: MetricConf): (r: Result<Metric, ConfigError>)
    ensures r.Ok? <==>
      conf.name.Some? && KnownType(conf.typ) && (conf.partitionKey.Some? || KnownGranularity(PartitionByOf(conf)))
    ensures conf.name.None? ==> r == Err(MissingName)
    ensures conf.name.Some? && !KnownType(conf.typ) ==> r == Err(UnexpectedType(conf.typ.value))
    ensures conf.name.Some? && KnownType(conf.typ) && conf.partitionKey.None? && !KnownGranularity(PartitionByOf(conf))
      ==> r == Err(UnexpectedPartitionBy(PartitionByOf(conf)))
    ensures r.Ok? ==>
      && r.value.name == conf.name.value
      && r.value.valueKey == conf.valueKey
      && r.value.countKey == conf.countKey
  {
    if conf.name.None? then Err(MissingName)
    else
      var ty :- ParseType(conf.typ);
      var localtime := conf.localtime.Some? || conf.utc.None?;
      var keys := if conf.eachKey.Some? then ParseKeys(conf.eachKey.value) else [];
      var keyRule := if conf.eachKey.Some? then CombinedKeyRule(keys) else NameKey;
      var valueRule := ValueRuleFor(p, ty, conf.valueKey, conf.defaultValue);
      var countRule := if conf.countKey.Some? then CountField(conf.countKey.value) else CountOne;
      var partitionRule :- PartitionRuleFor(conf, localtime);
      Ok(Metric(conf.name.value, keys, conf.valueKey, conf.countKey, keyRule, valueRule, countRule, partitionRule))
  }

  /** `MetricsMixin#configure`: one definition per `<metrics>` element, in order;
      the first failing element aborts configuration. */
  function ConfigureAll(p: Prims, confs: seq<MetricConf>): (r: Result<seq<Metric>, ConfigError>)
    ensures r.Ok? ==> |r.value| == |confs| && forall i :: 0 <= i < |confs| ==> Configure(p, confs[i]) == Ok(r.value[i])
    ensures r.Err? ==>
      exists i :: && 0 <= i < |confs|
                  && Configure(p, confs[i]) == Err(r.error)
                  && forall j :: 0 <= j < i ==> Configure(p, confs[j]).Ok?
    decreases |confs|
  {
    if |confs| == 0 then Ok([])
    else
      var m :- Configure(p, confs[0]);
      var rest :- ConfigureAll(p, confs[1..]);
      var ms := [m] + rest;
      assert forall i :: 1 <= i < |confs| ==> confs[i] == confs[1..][i - 1] && ms[i] == rest[i - 1];
      Ok(ms)
  }

  // ---------------------------------------------------------------- evaluate

  /** The multi-key closure of `create_combined_key_proc`: the fields' values in order, stopping
      with nil at the first field that is missing or false. */
  function CollectKeys(fields: seq<string>, r: Record): Option<seq<Val>>
    decreases |fields|
  {
    if |fields| == 0 then Some([])
    else
      var v := Fetch(r, fields[0]);
      if !Truthy(v) then None
      else
        var rest :- CollectKeys(fields[1..], r);
        Some([v] + rest)
  }

  /** `@key_proc.call(record)` */
  function KeysOf(m: Metric, r: Record): Option<seq<Val>> {
    match m.keyRule
    case NameKey => Some([Str(m.name)])
    case SingleKey(f) => var v := Fetch(r, f); if Truthy(v) then Some([v]) else None
    case CombinedKey(fs) => CollectKeys(fs, r)
  }

  /** `@value_proc.call(record)` */
  function ValueOf(p: Prims, m: Metric, r: Record): Option<real> {
    match m.valueRule
    case FieldValue(f, ty, dv) => var v := Fetch(r, f); if Truthy(v) then Some(Convert(p, ty, v)) else dv
    case ConstValue(c) => Some(c)
  }

  /** `@count_proc.call(record)` */
  function CountOf(p: Prims, m: Metric, r: Record): int {
    match m.countRule
    case CountField(f) => var c := ToI(p, Fetch(r, f)); if c == 0 then 1 else c
    case CountOne => 1
  }

  /** `@partition_proc.call(time, record)` */
  function PartitionOf(p: Prims, m: Metric, time: int, r: Record): Val {
    match m.partitionRule
    case RawPartition(f) => Fetch(r, f)
    case TimePartition(fmt, lt) => Str(p.timeFormat(fmt, lt, time))
  }

  /** `Metrics#evaluate`: None is Ruby's `nil`, "this definition does not apply". */
  function Evaluate(p: Prims, m: Metric, time: int, r: Record): Option<Tuple> {
    var keys :- KeysOf(m, r);
    var value :- ValueOf(p, m, r);
    Some(Tuple(keys, value, CountOf(p, m, r), PartitionOf(p, m, time, r)))
  }

  /** `MetricsMixin#each_metrics`: the definitions that apply, in order, with their tuples. */
  function EachMetrics(p: Prims, ms: seq<Metric>, time: int, r: Record): seq<(Metric, Tuple)>
    decreases |ms|
  {
    if |ms| == 0 then []
    else
      var rest := EachMetrics(p, ms[1..], time, r);
      match Evaluate(p, ms[0], time, r)
      case None => rest
      case Some(t) => [(ms[0], t)] + rest
  }

  // ---------------------------------------------------------------- properties

  /** Every listed field holds a truthy value. */
  predicate AllPresent(fields: seq<string>, r: Record) {
    forall i :: 0 <= i < |fields| ==> Truthy(Fetch(r, fields[i]))
  }

  /** The listed fields' values, in order. */
  function Project(fields: seq<string>, r: Record): (vs: seq<Val>)
    ensures |vs| == |fields|
  {
    seq(|fields|, i requires 0 <= i < |fields| => Fetch(r, fields[i]))
  }

  /** The multi-key closure yields all the key values or nothing, never a shorter list. */
  lemma {:induction false} CollectKeysAllOrNothing(fields: seq<string>, r: Record)
    ensures CollectKeys(fields, r) == if AllPresent(fields, r) then Some(Project(fields, r)) else None
    decreases |fields|
  {
    if |fields| > 0 {
      CollectKeysAllOrNothing(fields[1..], r);
      assert AllPresent(fields, r) <==> Truthy(Fetch(r, fields[0])) && AllPresent(fields[1..], r) by {
        assert forall i :: 1 <= i < |fields| ==> fields[1..][i - 1] == fields[i];
      }
      if AllPresent(fields, r) {
        assert Project(fields, r) == [Fetch(r, fields[0])] + Project(fields[1..], r);
      }
    }
  }

  /** Without each_key, the key is `[name]` whatever the record holds, and `metrics.keys` is empty. */
  lemma NameKeyWithoutEachKey(p: Prims, conf: MetricConf, m: Metric, r: Record)
    requires Configure(p, conf) == Ok(m) && conf.eachKey.None?
    ensures m.keys == []
    ensures KeysOf(m, r) == Some([Str(conf.name.value)])
  {
  }

  /** With each_key, both the single-key and the multi-key closure yield the value of every
      configured field, in order, or nil when any of them is missing or false. */
  lemma KeysAllOrNothing(p: Prims, conf: MetricConf, m: Metric, r: Record)
    requires Configure(p, conf) == Ok(m) && conf.eachKey.Some?
    ensures m.keys == ParseKeys(conf.eachKey.value)
    ensures KeysOf(m, r) == if AllPresent(m.keys, r) then Some(Project(m.keys, r)) else None
  {
    if |m.keys| == 1 {
      assert Project(m.keys, r) == [Fetch(r, m.keys[0])];
    } else {
      CollectKeysAllOrNothing(m.keys, r);
    }
  }

  /** The value a configured definition reads, stated from its parameters. */
  function ConfiguredValue(p: Prims, conf: MetricConf, ty: NumType, r: Record): Option<real> {
    if conf.valueKey.Some? && Truthy(Fetch(r, conf.valueKey.value)) then
      Some(Convert(p, ty, Fetch(r, conf.valueKey.value)))
    else if conf.defaultValue.Some? then Some(Convert(p, ty, Str(conf.defaultValue.value)))
    else if conf.valueKey.Some? then None
    else Some(1.0)
  }

  /** Value rules: the field parsed by type; else the default parsed the same way; else
      nil when a value field is configured, 1 when none is. */
  lemma ValueRules(p: Prims, conf: MetricConf, m: Metric, r: Record)
    requires Configure(p, conf) == Ok(m)
    ensures ValueOf(p, m, r) == ConfiguredValue(p, conf, if conf.typ == Some("float") then FloatType else IntType, r)
    ensures conf.valueKey.None? ==> ValueOf(p, m, r).Some?
  {
  }

  /** Count rules: the count field's `to_i`, with 0 (and so a missing field) read as 1;
      1 without a count field. A count is never 0. */
  lemma CountRules(p: Prims, conf: MetricConf, m: Metric, r: Record)
    requires Configure(p, conf) == Ok(m)
    ensures conf.countKey.None? ==> CountOf(p, m, r) == 1
    ensures conf.countKey.Some? && ToI(p, Fetch(r, conf.countKey.value)) == 0 ==> CountOf(p, m, r) == 1
    ensures conf.countKey.Some? && conf.countKey.value !in r ==> CountOf(p, m, r) == 1
    ensures conf.countKey.Some? && ToI(p, Fetch(r, conf.countKey.value)) != 0
      ==> CountOf(p, m, r) == ToI(p, Fetch(r, conf.countKey.value))
    ensures CountOf(p, m, r) != 0
  {
  }

  /** Partition rules: partition_key wins and yields the raw field; otherwise the event time
      formatted at the configured granularity, hourly by default, local time unless utc is set. */
  lemma PartitionRules(p: Prims, conf: MetricConf, m: Metric, time: int, r: Record)
    requires Configure(p, conf) == Ok(m)
    ensures conf.partitionKey.Some? ==> PartitionOf(p, m, time, r) == Fetch(r, conf.partitionKey.value)
    ensures conf.partitionKey.None? ==>
      PartitionOf(p, m, time, r) ==
        Str(p.timeFormat(TimeFormatFor(PartitionByOf(conf)).value, conf.localtime.Some? || conf.utc.None?, time))
    ensures conf.partitionKey.None? && conf.partitionBy.None? ==>
      m.partitionRule.TimePartition? && m.partitionRule.format == HourlyFormat
  {
  }

  /** `evaluate` yields nil exactly when the keys or the value are missing, and otherwise the
      tuple of keys, value, count and partition. */
  lemma EvaluateSkipsExactly(p: Prims, conf: MetricConf, m: Metric, time: int, r: Record)
    requires Configure(p, conf) == Ok(m)
    ensures Evaluate(p, m, time, r).None? <==>
      (conf.eachKey.Some? && !AllPresent(m.keys, r))
      || (conf.valueKey.Some? && !Truthy(Fetch(r, conf.valueKey.value)) && conf.defaultValue.None?)
    ensures Evaluate(p, m, time, r).Some? ==>
      Evaluate(p, m, time, r).value ==
        Tuple(KeysOf(m, r).value, ValueOf(p, m, r).value, CountOf(p, m, r), PartitionOf(p, m, time, r))
  {
    if conf.eachKey.Some? {
      KeysAllOrNothing(p, conf, m, r);
    }
  }

  /** Definitions are evaluated independently: the result for a concatenation of definition
      lists is the concatenation of the results. */
  lemma {:induction false} EachMetricsAppend(p: Prims, ms1: seq<Metric>, ms2: seq<Metric>, time: int, r: Record)
    ensures EachMetrics(p, ms1 + ms2, time, r) == EachMetrics(p, ms1, time, r) + EachMetrics(p, ms2, time, r)
    decreases |ms1|
  {
    if |ms1| == 0 {
      assert ms1 + ms2 == ms2;
    } else {
      assert (ms1 + ms2)[0] == ms1[0];
      assert (ms1 + ms2)[1..] == ms1[1..] + ms2;
      EachMetricsAppend(p, ms1[1..], ms2, time, r);
    }
  }

  /** A single definition yields once when it applies and not at all otherwise; with
      `EachMetricsAppend` this fixes the result for every definition list. */
  lemma EachMetricsOne(p: Prims, m: Metric, time: int, r: Record)
    ensures EachMetrics(p, [m], time, r) ==
      if Evaluate(p, m, time, r).Some? then [(m, Evaluate(p, m, time, r).value)] else []
  {
    assert [m][1..] == [];
  }

  /** A definition appears in the result, paired with its tuple, exactly when it is configured
      and applies to the record. */
  lemma {:induction false} EachMetricsMembers(p: Prims, ms: seq<Metric>, time: int, r: Record, m: Metric, t: Tuple)
    ensures (m, t) in EachMetrics(p, ms, time, r) <==> m in ms && Evaluate(p, m, time, r) == Some(t)
    decreases |ms|
  {
    if |ms| > 0 {
      EachMetricsMembers(p, ms[1..], time, r, m, t);
      assert m in ms <==> m == ms[0] || m in ms[1..] by {
        assert ms == [ms[0]] + ms[1..];
      }
    }
  }
}

=== FILE: ruby.dfy ===
/** The slice of Ruby's core semantics the plugins rely on. Operations whose
    internals are out of scope (numeric parsing, `to_s`, MD5, time formatting)
    are carried by a `Prims` value, so every property holds for any of them. */
module Ruby {
  import opened Wrappers

  /** A field value of an event record. `Int` stands for any non-String number; arrays and
      hashes as field values are not modelled. */
  datatype Val = Nil | Bool(b: bool) | Int(i: int) | Str(s: string)

  /** An event record: field name to value. */
  type Record = map<string, Val>

  /** Deterministic primitives treated as uninterpreted functions. */
  datatype Prims = Prims(
    toI: Val -> int,                  // `v.to_i` for a non-nil `v` (also String#to_i)
    toF: Val -> real,                 // `v.to_f` for a non-nil `v`
    show: int -> string,              // `Integer#to_s`
    inspect: seq<Val> -> string,      // Array#to_s
    md5Hex: string -> string,         // Digest::MD5.hexdigest
    hexToNat: string -> nat,          // String#to_i(16) of a hex digest
    timeFormat: (string, bool, int) -> string,  // TimeFormatter.new(format, localtime).format(time)
    parseTime: string -> Option<int>)           // Time.parse(s).to_i; None when it raises

  /** The exceptions the modelled code can raise while processing records. */
  datatype Failure =
    | NotAString               // TypeError: no implicit conversion into String
    | NilValueHash             // NoMethodError: `[]` on the nil "value" of a stored record
    | NilValueField(field: string)  // NoMethodError: `+` on nil for a field the stored record lacks
    | DivideByZero             // ZeroDivisionError: `% @num` with no nodes
    | UnparsableTime(text: string) // ArgumentError from Time.parse
    | NilNode(index: int)      // NoMethodError: `available?` on nil, index outside the node list
    | NoNodesAvailable         // the explicit "no nodes are available"

  /** Only `nil` and `false` are falsy. */
  predicate Truthy(v: Val) {
    !(v.Nil? || v == Bool(false))
  }

  /** `record[field]`: a missing field reads as nil. */
  function Fetch(r: Record, field: string): Val {
    if field in r then r[field] else Nil
  }

  /** `v.to_i`, with `nil.to_i == 0`. */
  function ToI(p: Prims, v: Val): int {
    if v.Nil? then 0 else p.toI(v)
  }

  /** `v.to_f`, with `nil.to_f == 0.0`. */
  function ToF(p: Prims, v: Val): real {
    if v.Nil? then 0.0 else p.toF(v)
  }

  /** `v.to_s`, as `Array#join` applies it: a String is itself and nil is empty. */
  function ToS(p: Prims, v: Val): string {
    match v
    case Nil => ""
    case Bool(b) => if b then "true" else "false"
    case Int(i) => p.show(i)
    case Str(s) => s
  }

  /** `vs.join` with the default empty separator. */
  function Join(p: Prims, vs: seq<Val>): string
    decreases |vs|
  {
    if |vs| == 0 then "" else ToS(p, vs[0]) + Join(p, vs[1..])
  }

  // ---------------------------------------------------------------- String#split

  /** Pieces glued back with the separator. */
  function JoinWith(pieces: seq<string>, sep: char): string
    decreases |pieces|
  {
    if |pieces| == 0 then ""
    else if |pieces| == 1 then pieces[0]
    else pieces[0] + [sep] + JoinWith(pieces[1..], sep)
  }

  /** Position of the first `sep` in `s`. */
  function IndexOf(s: string, sep: char): (i: nat)
    requires sep in s
    ensures i < |s| && s[i] == sep && sep !in s[..i]
  {
    if s[0] == sep then 0
    else
      assert sep in s[1..];
      var j := IndexOf(s[1..], sep);
      assert s[..j + 1] == [s[0]] + s[1..][..j];
      j + 1
  }

  /** Cut `s` at every `sep`, keeping empty pieces. */
  function SplitAll(s: string, sep: char): (pieces: seq<string>)
    ensures |pieces| >= 1
    ensures JoinWith(pieces, sep) == s
    ensures forall k :: 0 <= k < |pieces| ==> sep !in pieces[k]
    decreases |s|
  {
    if sep !in s then [s]
    else
      var i := IndexOf(s, sep);
      var rest := SplitAll(s[i + 1..], sep);
      var pieces := [s[..i]] + rest;
      assert pieces[1..] == rest;
      assert s == s[..i] + [sep] + s[i + 1..];
      pieces
  }

  /** Ruby drops the empty pieces at the end of a split. */
  function DropTrailingEmpty(pieces: seq<string>): (r: seq<string>)
    ensures r <= pieces
    ensures |r| == 0 || r[|r| - 1] != ""
    ensures forall k :: |r| <= k < |pieces| ==> pieces[k] == ""
    decreases |pieces|
  {
    if |pieces| == 0 || pieces[|pieces| - 1] != "" then pieces
    else DropTrailingEmpty(pieces[..|pieces| - 1])
  }

  /** `s.split(sep)` for a one-character separator. */
  function Split(s: string, sep: char): seq<string> {
    DropTrailingEmpty(SplitAll(s, sep))
  }

  // ---------------------------------------------------------------- String#strip

  /** ASCII whitespace as String#strip understands it. */
  predicate IsSpace(c: char) {
    c == ' ' || c == '\t' || c == '\n' || c == 11 as char || c == 12 as char || c == '\r'
  }

  /** At the end of a string, NUL characters are stripped as well. */
  predicate IsTrailingSpace(c: char) {
    IsSpace(c) || c == 0 as char
  }

  /** `s.lstrip` */
  function LStrip(s: string): (r: string)
    ensures |r| <= |s| && r == s[|s| - |r|..]
    ensures forall k :: 0 <= k < |s| - |r| ==> IsSpace(s[k])
    ensures |r| > 0 ==> !IsSpace(r[0])
    decreases |s|
  {
    if |s| > 0 && IsSpace(s[0]) then LStrip(s[1..]) else s
  }

  /** `s.rstrip` */
  function RStrip(s: string): (r: string)
    ensures |r| <= |s| && r == s[..|r|]
    ensures forall k :: |r| <= k < |s| ==> IsTrailingSpace(s[k])
    ensures |r| > 0 ==> !IsTrailingSpace(r[|r| - 1])
    decreases |s|
  {
    if |s| > 0 && IsTrailingSpace(s[|s| - 1]) then
      var r := RStrip(s[..|s| - 1]);
      assert s[..|s| - 1][..|r|] == s[..|r|];
      r
    else s
  }

  /** `s.strip` */
  function Strip(s: string): string {
    RStrip(LStrip(s))
  }

  // ---------------------------------------------------------------- Array#[]

  /** The position `a[i]` reads in an array of length `n`, or None when it reads nil;
      a negative `i` counts from the end. */
  function ArrayIndex(n: nat, i: int): (j: Option<nat>)
    ensures j.Some? <==> -(n as int) <= i < n
    ensures j.Some? ==> j.value < n && (j.value == i || j.value == i + n)
  {
    if 0 <= i < n then Some(i) else if -(n as int) <= i < 0 then Some(n + i) else None
  }

  // ---------------------------------------------------------------- String#<=>

  /** `a < b` for strings: the first differing character decides, else the shorter is smaller. */
  predicate StringLess(a: string, b: string)
    decreases |a|
  {
    if |a| == 0 then |b| > 0
    else if |b| == 0 then false
    else if a[0] != b[0] then a[0] < b[0]
    else StringLess(a[1..], b[1..])
  }

  lemma {:induction false} StringLessIrreflexive(a: string)
    ensures !StringLess(a, a)
    decreases |a|
  {
    if |a| > 0 {
      StringLessIrreflexive(a[1..]);
    }
  }

  lemma {:induction false} StringLessTotal(a: string, b: string)
    ensures a == b || StringLess(a, b) || StringLess(b, a)
    decreases |a|
  {
    if |a| > 0 && |b| > 0 && a[0] == b[0] {
      StringLessTotal(a[1..], b[1..]);
      if a[1..] == b[1..] {
        assert a == [a[0]] + a[1..] && b == [b[0]] + b[1..];
      }
    }
  }

  lemma {:induction false} StringLessAsymmetric(a: string, b: string)
    ensures !(StringLess(a, b) && StringLess(b, a))
    decreases |a|
  {
    if |a| > 0 && |b| > 0 && a[0] == b[0] {
      StringLessAsymmetric(a[1..], b[1..]);
    }
  }

  lemma {:induction false} StringLessTransitive(a: string, b: string, c: string)
    requires StringLess(a, b) && StringLess(b, c)
    ensures StringLess(a, c)
    decreases |a|
  {
    if |a| > 0 && a[0] == b[0] && b[0] == c[0] {
      StringLessTransitive(a[1..], b[1..], c[1..]);
    }
  }
}

=== FILE: ruby_hash.dfy ===
/** Ruby's Hash as the plugins use it: a finite map that remembers the order in
    which keys were first inserted. Re-assigning an existing key keeps its position. */
module RubyHash {

  datatype HashRep<K, V> = HashRep(keys: seq<K>, m: map<K, V>)

  /** The insertion order lists every bound key exactly once. */
  predicate WellFormed<K(==), V>(h: HashRep<K, V>) {
    && (forall i, j :: 0 <= i < j < |h.keys| ==> h.keys[i] != h.keys[j])
    && h.m.Keys == (set i | 0 <= i < |h.keys| :: h.keys[i])
  }

  type Hash<K(==), V> = h: HashRep<K, V> | WellFormed(h) witness HashRep([], map[])

  /** `{}` */
  function Empty<K(==), V>(): Hash<K, V> {
    HashRep([], map[])
  }

  /** `h[k] = v` */
  function Put<K(==), V>(h: Hash<K, V>, k: K, v: V): Hash<K, V> {
    if k in h.m then HashRep(h.keys, h.m[k := v])
    else
      var ks := h.keys + [k];
      assert (set i | 0 <= i < |ks| :: ks[i]) == h.m.Keys + {k} by {
        assert forall i :: 0 <= i < |h.keys| ==> ks[i] == h.keys[i];
        assert ks[|h.keys|] == k;
      }
      HashRep(ks, h.m[k := v])
  }

  /** `h.values`, in insertion order. */
  function Values<K(==), V>(h: Hash<K, V>): (vs: seq<V>)
    ensures |vs| == |h.keys|
  {
    seq(|h.keys|, i requires 0 <= i < |h.keys| => h.m[h.keys[i]])
  }

  /** `Hash[pairs]`: later pairs overwrite earlier ones with the same key. */
  function FromPairs<K(==), V>(ps: seq<(K, V)>): Hash<K, V>
    decreases |ps|
  {
    if |ps| == 0 then Empty()
    else Put(FromPairs(ps[..|ps| - 1]), ps[|ps| - 1].0, ps[|ps| - 1].1)
  }

  /** No key is paired with two different values. */
  predicate ConsistentPairs<K(==), V(==)>(ps: seq<(K, V)>) {
    forall i, j :: 0 <= i < |ps| && 0 <= j < |ps| && ps[i].0 == ps[j].0 ==> ps[i].1 == ps[j].1
  }

  /** `Hash[pairs]` binds exactly the keys that occur in the pairs. */
  lemma {:induction false} FromPairsKeys<K, V>(ps: seq<(K, V)>)
    ensures FromPairs(ps).m.Keys == set i | 0 <= i < |ps| :: ps[i].0
    decreases |ps|
  {
    if |ps| > 0 {
      var pre := ps[..|ps| - 1];
      FromPairsKeys(pre);
      assert (set i | 0 <= i < |ps| :: ps[i].0) == (set i | 0 <= i < |pre| :: pre[i].0) + {ps[|ps| - 1].0} by {
        assert forall i :: 0 <= i < |pre| ==> pre[i] == ps[i];
      }
    }
  }

  /** When the pairs never disagree, `Hash[pairs]` binds each key to its paired value. */
  lemma {:induction false} FromPairsLookup<K, V>(ps: seq<(K, V)>)
    requires ConsistentPairs(ps)
    ensures forall i :: 0 <= i < |ps| ==> ps[i].0 in FromPairs(ps).m && FromPairs(ps).m[ps[i].0] == ps[i].1
    decreases |ps|
  {
    if |ps| > 0 {
      var pre := ps[..|ps| - 1];
      assert ConsistentPairs(pre) by {
        forall i, j | 0 <= i < |pre| && 0 <= j < |pre| && pre[i].0 == pre[j].0
          ensures pre[i].1 == pre[j].1
        {
          assert pre[i] == ps[i] && pre[j] == ps[j];
        }
      }
      FromPairsLookup(pre);
      forall i | 0 <= i < |ps|
        ensures ps[i].0 in FromPairs(ps).m && FromPairs(ps).m[ps[i].0] == ps[i].1
      {
        if i < |pre| {
          assert pre[i] == ps[i];
        }
      }
    }
  }

  /** Every key in the insertion order is bound. */
  lemma KeyIn<K, V>(h: Hash<K, V>, i: nat)
    requires i < |h.keys|
    ensures h.keys[i] in h.m
  {
    var ks := set j | 0 <= j < |h.keys| :: h.keys[j];
    assert h.m.Keys == ks;
    assert h.keys[i] in ks;
  }
}

=== FILE: wrappers.dfy ===
/** Failure-compatible wrappers used throughout the model. */
module Wrappers {

  /** Ruby's `nil`-or-value, as returned by a lookup that may miss. */
  datatype Option<+T> = None | Some(value: T) {

    predicate IsFailure() {
      None?
    }

    function PropagateFailure<U>(): Option<U>
      requires None?
    {
      None
    }

    function Extract(): T
      requires Some?
    {
      value
    }
  }

  /** A computation that either returns a value or raises. */
  datatype Result<+R, +E> = Ok(value: R) | Err(error: E) {

    predicate IsFailure() {
      Err?
    }

    function PropagateFailure<U>(): Result<U, E>
      requires Err?
    {
      Err(error)
    }

    function Extract(): R
      requires Ok?
    {
      value
    }
  }
}
